=== FILE: README.md ===
# CommCare HQ marshalling and policy core, in Dafny

This project models three pieces of the CommCare HQ server and proves properties about them.

- **Formplayer marshalling.** Formplayer (also called touchforms) is the service that renders forms over SMS. The model covers:
  - the form configuration (`XFormsConfig`) and the request dict it becomes;
  - the SMS text prompt of a question, including the compact rendering of select questions;
  - the classification of the backend's answer into a question event, a validation error, an HTTP error or an unhandleable answer;
  - how an outgoing request is prepared (domain check, session-id normalisation);
  - the status codes that turn an answer into an exception.
- **Cloudcare case filters.** Case filters come from the parameters of an HTTP request. The model covers how those parameters become filters and how the filters become a search query. It also covers the legacy `closed` parameter.
- **Submission rate limiting.** Form submissions are checked against a global limiter and a per-domain limiter. The model covers the decision that combines their answers with the `RATE_LIMIT_SUBMISSIONS` feature flag. It also covers which usage counters that decision updates.

JSON data is the datatype `Json.Value`, and Python's truthiness is `Json.Truthy`. Raised exceptions are the `Err` side of `Wrappers.Result`. Python's insertion-ordered dicts of request parameters are modelled by `OrderedDict.Dict`. The network exchange with the backend is not modelled: the answer it gives, or a socket failure, is a parameter of type `Formplayer.Transport`. Two more things are inputs rather than computed. One is each limiter's "allow" answer. The other is the outcome of the bounded wait. URL decoding of parameter names is an abstract function parameter (`unquote`).

Files: `wrappers.dfy`, `numerals.dfy` (Python `str(int)` and `int(str)`), `json.dfy`, `ordered_dict.dfy`, `formplayer.dfy`, `cloudcare.dfy`, `rate_limiter.dfy`.

One behaviour of the code is worth knowing. `XFormsConfig` stores a `domain`, but `get_touchforms_dict` never copies it into the request. Only `session_data['domain']` reaches `_post_data`, which demands a domain. Lemma `Formplayer.StartSessionNeedsSessionDomain` proves the consequence: starting a session fails with "Expected domain" whenever the session data has no truthy domain, whatever the configured domain is. The model follows the code here.

Two more behaviours follow from Python 3's exception hierarchy and from how `format` treats keyword arguments:

- `_get_response` catches `socket.error`, which in Python 3 is `OSError`. `requests.HTTPError` derives from `requests.RequestException`, which is an `IOError`, so it is an `OSError` too. So the `HTTPError` that `_post_data` raises for a 5xx answer is caught as well, and the caller receives the server-down answer. `Formplayer.GetResponse` states this. Of `_post_data`'s errors, only the domain `ValueError`, the missing-action `KeyError` and Django's `Http404` escape; the classification errors (`TouchformsError`, `AssertionError` and the event's parse errors) escape as well.
- For an unhandleable answer, `XformsResponse` passes `response_data=datadict` to `str.format`, not to `TouchformsError`. `format` ignores it, so the raised error's `response_data` keeps its default `{}`. The model records this as an empty `responseData`.

## Model

| member | source | states |
|---|---|---|
| Formplayer.NewConfig | corehq/apps/formplayer_api/smsforms/api.py:36-53 | Construction fails with `XFormsConfigException` exactly when form path and form content are both truthy or both falsy; otherwise every argument is stored unchanged |
| Formplayer.AcceptedConfigNamesFormOnce | corehq/apps/formplayer_api/smsforms/api.py:39-42 | The request built from an accepted configuration carries `form-name` exactly when it lacks `form-content`, and `form-url` exactly when it has `form-name` |
| Formplayer.KeepTruthy | corehq/apps/formplayer_api/smsforms/api.py:69-70 | A listed pair is in the dict exactly when its value is truthy, and then with that value; no other key appears |
| Formplayer.AddKey | corehq/apps/formplayer_api/smsforms/api.py:87-89 | A key is copied from the session data exactly when it is present there; every other entry is untouched |
| Formplayer.ListedEntries | corehq/apps/formplayer_api/smsforms/api.py:60-70 | `action` is always `new-form`. Each other listed field is present exactly when its value is truthy. `form-name` and `form-url` both carry the form path. Nothing outside the listed keys appears |
| Formplayer.ConfigEntries | corehq/apps/formplayer_api/smsforms/api.py:60-73 | The listed entries survive copying `username`, `domain` and `app_id`, each present exactly when the session data has it |
| Formplayer.TouchformsDict | corehq/apps/formplayer_api/smsforms/api.py:55-89 | `None` session data raises `TypeError`. Neither restore-as value raises `ValueError`. Otherwise the dict has every listed and copied entry, `restoreAsCaseId` exactly when that value is truthy, else `restoreAs`, and only known keys |
| Formplayer.ParseEvent | corehq/apps/formplayer_api/smsforms/api.py:115-121 | An event needs a dict with a `type` (`KeyError` otherwise; `TypeError` for a non-dict); caption, datatype and output default to the empty string, and choices to `None` |
| Formplayer.NumberedChoices | corehq/apps/formplayer_api/smsforms/api.py:150-151 | One entry per choice, in order, the i-th being `"i:choice"` counted from 1 |
| Formplayer.JoinCons | corehq/apps/formplayer_api/smsforms/api.py:151 | Joining with one more part in front puts that part and a separator before the join of the rest |
| Formplayer.RenderCompact | corehq/apps/formplayer_api/smsforms/api.py:143-151 | Building the prompt one choice at a time gives caption, a space, the numbered choices joined by `", "`, then `"."`; with no choices it is `caption + " ."` |
| Formplayer.CompactExample | corehq/apps/formplayer_api/smsforms/api.py:104-113 | The documented color question renders as `What's your favorite color? 1:red, 2:green, 3:blue.` |
| Formplayer.ItemTexts | corehq/apps/formplayer_api/smsforms/api.py:151 | Each list item is rendered by Python's `str()`; the rendering succeeds exactly when every item is a scalar |
| Formplayer.ChoiceTexts | corehq/apps/formplayer_api/smsforms/api.py:151 | A list's choices are its items, and a string's are its one-character strings. Enumerating `None`, a bool or an int raises `TypeError` |
| Formplayer.SelectToTextCompact | corehq/apps/formplayer_api/smsforms/api.py:143-151 | For a scalar caption and a list of scalar choices, the result is the compact rendering of their `str()` texts. For a string caption and string choices, those are the strings themselves. String choices are rendered character by character, as Python iterates a string. `None`, bool or int choices raise `TypeError` |
| Formplayer.TextPrompt | corehq/apps/formplayer_api/smsforms/api.py:132-140 | `select`/`multiselect` questions get the compact rendering of the raw `choices` (`KeyError` if absent); every other question gets its bare caption |
| Formplayer.ColorQuestionPrompt | corehq/apps/formplayer_api/smsforms/api.py:98-140 | The documented event dict parses, and its prompt is `What's your favorite color? 1:red, 2:green, 3:blue.` |
| Formplayer.ReadEvent | corehq/apps/formplayer_api/smsforms/api.py:180-185 | An absent or null event gives no event. Otherwise the event is parsed and its text prompt computed; it succeeds exactly when both steps do, and either step's error escapes |
| Formplayer.ClassifyResponse | corehq/apps/formplayer_api/smsforms/api.py:176-207 | `validation-error` gives an error whose prompt is `reason` or "that is not a legal answer", with no `error` and no HTTP details. `http-error` gives an error carrying `error` and the dict's `status_code`, `args` and `url`, with no prompt. Either with an event fails. Any other status without an event raises `TouchformsError` with empty `response_data`; with one it is a non-error carrying that event and its prompt. An event that fails to parse or prompt raises that error |
| Formplayer.ClassifyResponsePartition | corehq/apps/formplayer_api/smsforms/api.py:176-207 | Each answer is exactly one of a validation error, an HTTP error, a question or an exception, each class pinned to its status and event |
| Formplayer.ServerDown | corehq/apps/formplayer_api/smsforms/api.py:209-214 | The server-down answer is an `http-error` error with the fixed message and no event |
| Formplayer.NormalizeSession | corehq/apps/formplayer_api/smsforms/api.py:251-263 | Always sets `oneQuestionPerScreen`=true and `nav_mode`=`prompt`. If either session-id spelling is present, both keys end up equal, preferring `session_id`; otherwise neither is added. Other keys are unchanged |
| Formplayer.NormalizeSessionIdempotent | corehq/apps/formplayer_api/smsforms/api.py:251-263 | Normalising an already normalised request changes nothing |
| Formplayer.PrepareRequest | corehq/apps/formplayer_api/smsforms/api.py:226-233 | A falsy or missing domain raises `ValueError("Expected domain")`. A missing action raises `KeyError`. Otherwise the normalised request is sent |
| Formplayer.CheckStatus | corehq/apps/formplayer_api/smsforms/api.py:242-248 | Status 404 raises `Http404` with the reason. Statuses 500-599 raise `HTTPError` with the "code Server Error: reason for url: url" message. Every other status yields the body |
| Formplayer.CheckStatusOutcomes | corehq/apps/formplayer_api/smsforms/api.py:242-248 | `Http404` is raised exactly for 404 and `HTTPError` exactly for 500-599. The 5xx message opens with the code's decimal text and a space, and that text reads back as the code |
| Formplayer.PostData | corehq/apps/formplayer_api/smsforms/api.py:226-248 | The domain check comes first, then the missing-action `KeyError`; both escape unchanged. A socket failure escapes. An answer is subject to the status checks |
| Formplayer.GetResponse | corehq/apps/formplayer_api/smsforms/api.py:217-248 | A socket failure and a 5xx answer both become the server-down answer, since `HTTPError` is an `OSError`. The domain, missing-action and 404 errors escape. A good answer is classified |
| Formplayer.StartSession | corehq/apps/formplayer_api/smsforms/api.py:91-96 | A session start sends the configuration's touchforms dict, or raises what building it raises |
| Formplayer.StartSessionNeedsSessionDomain | corehq/apps/formplayer_api/smsforms/api.py:55-96 | Without a truthy domain in the session data, starting a session raises "Expected domain" whatever the configured domain |
| Formplayer.ActionRequest | corehq/apps/formplayer_api/smsforms/api.py:302-318 | The interface request holds exactly the action, the session id and the domain |
| Formplayer.AnswerRequest | corehq/apps/formplayer_api/smsforms/api.py:296-299 | The answer request holds exactly the action `answer`, the session id, the answer and the domain |
| Formplayer.ActionRequestPrepared | corehq/apps/formplayer_api/smsforms/api.py:302-309 | An interface request with a truthy domain is prepared with its action and domain, and the session id under both spellings |
| Formplayer.AnswerQuestion | corehq/apps/formplayer_api/smsforms/api.py:292-300 | The request sent holds the action `answer`, the session id, the answer and the domain. Answering raises "Expected domain" for a falsy domain. A socket failure or a 5xx answer gives the server-down answer, 404 raises `Http404`, and a good answer is classified |
| Formplayer.Navigate | corehq/apps/formplayer_api/smsforms/api.py:302-318 | The request sent holds the action, the session id and the domain. `current` and `next` behave like answering, as to domain, socket failure, 5xx, 404 and classification |
| Formplayer.GetRawInstance | corehq/apps/formplayer_api/smsforms/api.py:271-290 | An answer with an `error` entry raises `InvalidSessionIdException` for "Form session not found" and `TouchformsError` otherwise; an answer without one is returned |
| Json.ScalarText | corehq/apps/formplayer_api/smsforms/api.py:150-151 | Python `str()` of a scalar: a string is itself, `None` is `None`, booleans are `True`/`False`, integers their decimal text; only lists and dicts are outside the model |
| Numerals.ParseInt | corehq/apps/cloudcare/api.py:52-53 | `int()` accepts exactly at least one ASCII digit after an optional sign and refuses everything else. The value is the digits' decimal value, negated after `-` |
| Numerals.ParseIntOfIntToString | corehq/apps/cloudcare/api.py:52-53 | Reading back a printed integer gives that integer |
| Numerals.DigitsValueOfNatToString | corehq/apps/formplayer_api/smsforms/api.py:245-246 | The decimal digits printed for a natural number have that number as their value |
| OrderedDict.Set | corehq/apps/cloudcare/api.py:162 | Assigning a key makes it map to the value, keeps other keys' values, keeps keys unique, keeps position when present and appends otherwise |
| OrderedDict.Filter | corehq/apps/cloudcare/api.py:164 | The result holds exactly the pairs whose key passes, with their values, keys unique |
| OrderedDict.FilterAppend | corehq/apps/cloudcare/api.py:164 | Filtering keeps order: the empty dict gives nothing, and a pair appended to the input is appended to the output when its key passes |
| OrderedDict.RemoveAll | corehq/apps/cloudcare/api.py:166-169 | Each named key is gone and every other key keeps its value |
| Cloudcare.ApiClosedToStatus | corehq/apps/cloudcare/api.py:31-37 | Only `any`, `true` and `false` are accepted; any other string raises `KeyError` |
| Cloudcare.ApiClosedRoundTrip | corehq/apps/cloudcare/api.py:31-37 | `any`/`true`/`false` and ALL/CLOSED/OPEN are in one-to-one correspondence |
| Cloudcare.IntParam | corehq/apps/cloudcare/api.py:52-53 | An absent parameter gives the default; a present one is parsed as an integer or raises `ValueError` |
| Cloudcare.NewCaseQuery | corehq/apps/cloudcare/api.py:49-57 | Offset and limit are `int()` of the given parameters, defaulting to 0 and 50. Construction fails exactly when one of them does not parse, raising the offset's `ValueError` first, then the limit's. The four date bounds are the filters' values |
| Cloudcare.OrDefault | corehq/apps/cloudcare/api.py:67-81 | A non-empty bound is used as given; a missing or empty one takes the default |
| Cloudcare.DateRangeDefaults | corehq/apps/cloudcare/api.py:59-81 | The client range is used exactly when either client bound is given, and likewise for the server range. A missing start is the epoch date and a missing end the maximal date |
| Cloudcare.ScrubbedFilters | corehq/apps/cloudcare/api.py:83-86 | Keeps exactly the filters that are neither reserved nor end in `__full`, with their values |
| Cloudcare.ScrubbedFiltersAppend | corehq/apps/cloudcare/api.py:83-86 | Scrubbing keeps the filters' order: a filter added last comes last among the scrubbed filters when it is kept |
| Cloudcare.Lower | corehq/apps/cloudcare/api.py:119 | Lower-casing keeps the length and lower-cases each ASCII letter |
| Cloudcare.LowerIdempotent | corehq/apps/cloudcare/api.py:119 | Lower-casing a lower-cased value changes nothing |
| Cloudcare.FilterTerms | corehq/apps/cloudcare/api.py:118-119 | One exact term per filter, in order, with the value lower-cased |
| Cloudcare.Terms | corehq/apps/cloudcare/api.py:110-119 | The domain term comes first. The `modified_on` range follows twice when the client range is used, then the `server_modified_on` range when used, then one term per scrubbed filter |
| Cloudcare.GetQuery | corehq/apps/cloudcare/api.py:121-133 | All terms must match. Results sort by `modified_on` ascending. `from` is the offset and `size` exceeds it by the limit |
| Cloudcare.QueryWindow | corehq/apps/cloudcare/api.py:121-133 | With paging parameters that parse, the query starts at the parsed offset and its size is offset plus limit |
| Cloudcare.DefaultPaging | corehq/apps/cloudcare/api.py:52-53 | Without paging parameters the query asks from 0 with size 50 |
| Cloudcare.DecodeKeys | corehq/apps/cloudcare/api.py:154-162 | Keys are unique after decoding; each decoded key holds the value of the last parameter whose name decodes to it |
| Cloudcare.FiltersFromRequestParams | corehq/apps/cloudcare/api.py:149-170 | The seven system properties are dropped. With a whitelist, only keys containing `/` or in the whitelist stay. Every other decoded key stays with its value |
| SubmissionRateLimit.ReportDomainUsage | corehq/apps/receiverwrapper/rate_limiter.py:80 | Reporting domain usage adds one to that domain's counter only |
| SubmissionRateLimit.ReportGlobalUsage | corehq/apps/receiverwrapper/rate_limiter.py:81 | Reporting global usage adds one to the global counter only |
| SubmissionRateLimit.RateLimitSubmission | corehq/apps/receiverwrapper/rate_limiter.py:65-84 | Rejected exactly when both limiters refuse and the flag is on. Either allowance means never rejected. The domain limiter is asked only when the global one refuses. Unflagged refusals wait up to 15 s, tagged `timeout` exactly when not acquired. Both counters grow by one exactly when allowed. The metrics are exactly: the `rate_limited` counter for a rejection; the test metric for this domain then the thresholds report call for the dry-run wait; the thresholds report call alone otherwise |
| SubmissionRateLimit.GlobalAllowanceShortCircuits | corehq/apps/receiverwrapper/rate_limiter.py:66-71 | When the global limiter allows, neither the domain limiter's answer nor the wait affects the outcome |
| SubmissionRateLimit.RunCountsAllowed | corehq/apps/receiverwrapper/rate_limiter.py:79-84 | Over any series of submissions, the global counter grows by the number of allowed ones. Each domain's counter grows by the number of its allowed ones |

## Left out

- The HTTP transport of `_post_data` is not modelled. That covers `requests.post`, the URL, the headers, the HMAC digest, JSON encoding and `response.json()`. These are I/O and foreign calls, so the parsed answer body is an input.
- A non-JSON or non-object answer body is not modelled, because the body is given already parsed as an object.
- `_get_formplayer_session_data` mutates the caller's dict in place, and the model does not reproduce this. The model returns a new dict, and no caller in the module reuses the old one.
- `es_filter_cases`, `look_up_app_json`, `get_cloudcare_app` and `get_app_json` are not modelled. They are search-index and database lookups against remote state.
- The limiters themselves are not modelled. `RateLimiter`, `PerUserRateDefinition` and `get_dynamic_rate_definition` live in `corehq.project_limits.rate_limiter`, and `get_standard_ratio_rate_definition` lives in `corehq.project_limits.shortcuts`; they turn rate definitions into allow and wait answers. The rates configured in corehq/apps/receiverwrapper/rate_limiter.py (lines 27-56) are a per-user definition for `SUBMISSIONS_PER_DAY` = 46, a constant definition of 100/50/30/10/1 per week/day/hour/minute/second, and a global default of 17000/400/30 per hour/minute/second. Because the limiter logic is not modelled, the limiters' answers and the wait's outcome are inputs.
- The Datadog metrics are modelled only as tags (`Metric`, `DurationTag`). `bucket_value`, `TimingContext`, `quickcache` and the thresholds report are not modelled. `ThresholdsReportCall` marks a call of `_report_current_global_submission_thresholds`; because of its one-minute cache, such a call emits the gauges at most once a minute.
- The `run_only_when` and `silence_and_report_error` decorators from `corehq.util.decorators` are not modelled. They skip the decision in enterprise mode and under unit tests (`SHOULD_RATE_LIMIT_SUBMISSIONS`, rate_limiter.py:59) and swallow an exception raised inside it. Both are behaviour of those decorators, not of the decision.
- The elapsed time of the wait is not modelled. Only its timeout (15 s) and whether it acquired are.
- The domain release-restriction view, the group search pillow, the export-type migration command and the two front-end view models are not modelled. They are ORM, index configuration, one-off migration and UI code.
- `json_format_date` is not modelled; its two results are the constants `EpochDate` and `MaxDate`.
- Floating-point JSON values are not modelled.
- Json.ScalarText: Python's `str()` of a nested list or dict is not modelled. Such a caption or choice, or a dict used as choices, yields the `Unmodelled` error instead of a rendering.
- Cloudcare.Lower: only ASCII letters are lower-cased. Python's `str.lower` also folds other Unicode cased letters.
- Numerals.ParseInt: only an optional sign and ASCII digits are accepted. Python's `int()` also strips surrounding whitespace and accepts `_` separators and non-ASCII digits.
- Formplayer.NewConfig: the text of the `XFormsConfigException` message is not modelled, because it embeds Python formatting of the arguments.
- Formplayer.ClassifyResponse: the message of the `TouchformsError` for an unhandleable answer is represented by the answer itself rather than by its `json.dumps` text; its `response_data` is modelled exactly (empty).
- `TypeError` messages are approximations of Python's wording. The model relies only on their kind.
- `session_data` is modelled as a dict or `None`. Other Python types for it are not modelled.
- The `assert` statements of `XformsResponse` are modelled as an `AssertionError` result. With Python's `-O` they would be skipped, and that case is not modelled.
- The filter values of `ElasticCaseQuery` are strings, as they are when they come from request parameters. The `filters=None` default of `es_filter_cases` is not modelled.
- The `_decode` fallback for an exception from `unquote` is not modelled: `unquote` is a total abstract function.

=== FILE: cloudcare.dfy ===
/** The case-filter API of corehq/apps/cloudcare/api.py: the legacy
    `closed` parameter, the translation of request parameters into case
    filters, and of filters into a search query. Running the query is not
    part of this model; the query is produced as data. */
module Cloudcare {
  import opened Wrappers
  import opened OrderedDict
  import Numerals

  datatype Error =
    | KeyError(key: string)
    | ValueError(text: string)   // `int()` of a malformed number

  /** Request parameters and filters: an insertion-ordered string dict. */
  type Filters = Dict<string>

  // ---------------------------------------------------------------------
  // api_closed_to_status
  // ---------------------------------------------------------------------

  /** The case statuses the API filters on (`CASE_STATUS_ALL/CLOSED/OPEN`). */
  datatype CaseStatus = All | Closed | Open

  /** Legacy `closed=any|true|false`; any other value is a `KeyError`. */
  function ApiClosedToStatus(closed: string): (r: Result<CaseStatus, Error>)
    ensures r.Ok? <==> closed == "any" || closed == "true" || closed == "false"
    ensures r.Err? ==> r.error == KeyError(closed)
  {
    if closed == "any" then Ok(All)
    else if closed == "true" then Ok(Closed)
    else if closed == "false" then Ok(Open)
    else Err(KeyError(closed))
  }

  /** The legacy parameter value that denotes each status. */
  function StatusToApiClosed(status: CaseStatus): string {
    match status
    case All => "any"
    case Closed => "true"
    case Open => "false"
  }

  /** Each status has exactly one legacy spelling, and every accepted
      spelling denotes the status it is the spelling of. */
  lemma ApiClosedRoundTrip(status: CaseStatus, closed: string)
    ensures ApiClosedToStatus(StatusToApiClosed(status)) == Ok(status)
    ensures ApiClosedToStatus(closed).Ok? ==> StatusToApiClosed(ApiClosedToStatus(closed).value) == closed
  {
  }

  // ---------------------------------------------------------------------
  // ElasticCaseQuery
  // ---------------------------------------------------------------------

  const DefaultOffset := 0
  const DefaultLimit := 50

  /** `json_format_date(datetime(1970, 1, 1))` and `json_format_date(datetime.max)`:
      the date formatter is not part of this model, only its two results. */
  const EpochDate := "1970-01-01"
  const MaxDate := "9999-12-31"

  /** The filter keys that configure the query rather than filter cases. */
  const ReservedKeys: set<string> :=
    {"date_modified_start", "date_modified_end",
     "server_date_modified_start", "server_date_modified_end",
     "limit", "offset"}

  /** A case query: the domain, the raw filters, the paging window and the
      four optional date bounds. */
  datatype CaseQuery = CaseQuery(
    domain: string,
    filters: Filters,
    offset: int,
    limit: int,
    modifiedStart: Option<string>,
    modifiedEnd: Option<string>,
    serverModifiedStart: Option<string>,
    serverModifiedEnd: Option<string>)

  /** `int(filters.get(key, default))`. */
  function IntParam(filters: Filters, key: string, default: int): (r: Result<int, Error>)
    ensures Get(filters, key).None? ==> r == Ok(default)
    ensures Get(filters, key).Some? ==>
              match Numerals.ParseInt(Get(filters, key).value)
              case Some(n) => r == Ok(n)
              case None => r == Err(ValueError(Get(filters, key).value))
  {
    match Get(filters, key)
    case None => Ok(default)
    case Some(text) =>
      match Numerals.ParseInt(text)
      case Some(n) => Ok(n)
      case None => Err(ValueError(text))
  }

  /** `ElasticCaseQuery(domain, filters)`. */
  function NewCaseQuery(domain: string, filters: Filters): (r: Result<CaseQuery, Error>)
    ensures r.Ok? <==> IntParam(filters, "offset", DefaultOffset).Ok? && IntParam(filters, "limit", DefaultLimit).Ok?
    ensures IntParam(filters, "offset", DefaultOffset).Err? ==>
              r == Err(IntParam(filters, "offset", DefaultOffset).error)
    ensures IntParam(filters, "offset", DefaultOffset).Ok? && IntParam(filters, "limit", DefaultLimit).Err? ==>
              r == Err(IntParam(filters, "limit", DefaultLimit).error)
    ensures r.Ok? ==> Ok(r.value.offset) == IntParam(filters, "offset", DefaultOffset)
    ensures r.Ok? ==> Ok(r.value.limit) == IntParam(filters, "limit", DefaultLimit)
    ensures r.Ok? && Get(filters, "offset").None? ==> r.value.offset == DefaultOffset
    ensures r.Ok? && Get(filters, "limit").None? ==> r.value.limit == DefaultLimit
    ensures r.Ok? ==> r.value.domain == domain && r.value.filters == filters
    ensures r.Ok? ==> r.value.modifiedStart == Get(filters, "date_modified_start")
    ensures r.Ok? ==> r.value.modifiedEnd == Get(filters, "date_modified_end")
    ensures r.Ok? ==> r.value.serverModifiedStart == Get(filters, "server_date_modified_start")
    ensures r.Ok? ==> r.value.serverModifiedEnd == Get(filters, "server_date_modified_end")
  {
    var offset :- IntParam(filters, "offset", DefaultOffset);
    var limit :- IntParam(filters, "limit", DefaultLimit);
    Ok(CaseQuery(domain, filters, offset, limit,
                 Get(filters, "date_modified_start"), Get(filters, "date_modified_end"),
                 Get(filters, "server_date_modified_start"), Get(filters, "server_date_modified_end")))
  }

  /** A date bound counts when it is given and non-empty (Python truthiness). */
  predicate Given(bound: Option<string>) {
    bound.Some? && bound.value != ""
  }

  /** `bound or default`. */
  function OrDefault(bound: Option<string>, default: string): (r: string)
    ensures Given(bound) ==> r == bound.value
    ensures !Given(bound) ==> r == default
  {
    if Given(bound) then bound.value else default
  }

  predicate UsesModified(q: CaseQuery) {
    Given(q.modifiedStart) || Given(q.modifiedEnd)
  }

  predicate UsesServerModified(q: CaseQuery) {
    Given(q.serverModifiedStart) || Given(q.serverModifiedEnd)
  }

  function DateModifiedStart(q: CaseQuery): string { OrDefault(q.modifiedStart, EpochDate) }
  function DateModifiedEnd(q: CaseQuery): string { OrDefault(q.modifiedEnd, MaxDate) }
  function ServerDateModifiedStart(q: CaseQuery): string { OrDefault(q.serverModifiedStart, EpochDate) }
  function ServerDateModifiedEnd(q: CaseQuery): string { OrDefault(q.serverModifiedEnd, MaxDate) }

  /** A query built from filters uses a client (server) date range exactly when
      the filters give a non-empty client (server) bound, and a missing
      bound is the epoch or the maximal date. */
  lemma DateRangeDefaults(domain: string, filters: Filters)
    requires NewCaseQuery(domain, filters).Ok?
    ensures var q := NewCaseQuery(domain, filters).value;
      && (UsesModified(q) <==> Given(Get(filters, "date_modified_start")) || Given(Get(filters, "date_modified_end")))
      && (UsesServerModified(q) <==>
            Given(Get(filters, "server_date_modified_start")) || Given(Get(filters, "server_date_modified_end")))
      && (!Given(Get(filters, "date_modified_start")) ==> DateModifiedStart(q) == EpochDate)
      && (!Given(Get(filters, "date_modified_end")) ==> DateModifiedEnd(q) == MaxDate)
      && (!Given(Get(filters, "server_date_modified_start")) ==> ServerDateModifiedStart(q) == EpochDate)
      && (!Given(Get(filters, "server_date_modified_end")) ==> ServerDateModifiedEnd(q) == MaxDate)
      && (Given(Get(filters, "date_modified_start")) ==> DateModifiedStart(q) == Get(filters, "date_modified_start").value)
  {
  }

  predicate EndsWith(s: string, suffix: string) {
    |suffix| <= |s| && s[|s| - |suffix|..] == suffix
  }

  /** A filter that selects cases rather than configuring the query. */
  predicate Scrubbable(key: string) {
    key !in ReservedKeys && !EndsWith(key, "__full")
  }

  /** `scrubbed_filters`: every non-reserved, non-`__full` filter, unchanged and in order. */
  function ScrubbedFilters(q: CaseQuery): (r: Filters)
    ensures forall p :: p in r <==> p in q.filters && Scrubbable(p.0)
    ensures forall k :: Get(r, k) == if Scrubbable(k) then Get(q.filters, k) else None
    ensures NoDupKeys(q.filters) ==> NoDupKeys(r)
  {
    Filter(q.filters, Scrubbable)
  }

  /** Scrubbing keeps the order of the filters: a filter added at the end
      ends up at the end of the scrubbed filters, if it is kept at all. */
  lemma ScrubbedFiltersAppend(q: CaseQuery, p: (string, string))
    ensures ScrubbedFilters(q.(filters := q.filters + [p]))
         == ScrubbedFilters(q) + (if Scrubbable(p.0) then [p] else [])
  {
    FilterAppend(q.filters, Scrubbable, p);
  }

  function LowerChar(c: char): char {
    if 'A' <= c <= 'Z' then (c as int + 32) as char else c
  }

  /** `str.lower()` on ASCII letters. */
  function Lower(s: string): (r: string)
    ensures |r| == |s|
    ensures forall i :: 0 <= i < |s| ==> r[i] == LowerChar(s[i])
  {
    seq(|s|, i requires 0 <= i < |s| => LowerChar(s[i]))
  }

  /** Lower-casing twice is lower-casing once. */
  lemma LowerIdempotent(s: string)
    ensures Lower(Lower(s)) == Lower(s)
  {
  }

  /** A search clause: an exact term or a date range. */
  datatype Term =
    | Match(field: string, value: string)
    | Range(field: string, from: string, to: string)

  function ModifiedRange(q: CaseQuery): Term {
    Range("modified_on", DateModifiedStart(q), DateModifiedEnd(q))
  }

  function ServerModifiedRange(q: CaseQuery): Term {
    Range("server_modified_on", ServerDateModifiedStart(q), ServerDateModifiedEnd(q))
  }

  /** One lower-cased exact term per filter, in filter order. */
  function FilterTerms(filters: Filters): (r: seq<Term>)
    ensures |r| == |filters|
    ensures forall i :: 0 <= i < |filters| ==> r[i] == Match(filters[i].0, Lower(filters[i].1))
    decreases |filters|
  {
    if |filters| == 0 then []
    else [Match(filters[0].0, Lower(filters[0].1))] + FilterTerms(filters[1..])
  }

  /** How many leading date-range clauses `get_terms` emits after the domain term. */
  function RangeCount(q: CaseQuery): nat {
    (if UsesModified(q) then 2 else 0) + (if UsesServerModified(q) then 1 else 0)
  }

  /** `get_terms`: the domain term, the client range (twice, as the source
      emits it), the server range, then the scrubbed filters. */
  function Terms(q: CaseQuery): (r: seq<Term>)
    ensures |r| == 1 + RangeCount(q) + |ScrubbedFilters(q)|
    ensures r[0] == Match("domain.exact", q.domain)
    ensures UsesModified(q) ==> r[1] == ModifiedRange(q) && r[2] == ModifiedRange(q)
    ensures UsesServerModified(q) ==> r[RangeCount(q)] == ServerModifiedRange(q)
    ensures r[1 + RangeCount(q)..] == FilterTerms(ScrubbedFilters(q))
    ensures forall i :: 1 <= i < 1 + RangeCount(q) ==> r[i].Range?
  {
    [Match("domain.exact", q.domain)]
    + (if UsesModified(q) then [ModifiedRange(q)] else [])
    + (if UsesModified(q) then [ModifiedRange(q)] else [])
    + (if UsesServerModified(q) then [ServerModifiedRange(q)] else [])
    + FilterTerms(ScrubbedFilters(q))
  }

  /** The search request body. */
  datatype Query = Query(must: seq<Term>, sortField: string, sortOrder: string, from: int, size: int)

  /** `get_query`: all terms must match, oldest modification first, and the
      window starts at the offset and is `offset + limit` long. */
  function GetQuery(q: CaseQuery): (r: Query)
    ensures r.must == Terms(q)
    ensures r.sortField == "modified_on" && r.sortOrder == "asc"
    ensures r.from == q.offset && r.size - r.from == q.limit
  {
    Query(Terms(q), "modified_on", "asc", q.offset, q.offset + q.limit)
  }

  /** The search window follows the request's paging parameters: it starts
      at the parsed `offset` and ends at `offset + limit`. */
  lemma QueryWindow(domain: string, filters: Filters, offset: string, limit: string)
    requires Get(filters, "offset") == Some(offset) && Get(filters, "limit") == Some(limit)
    requires Numerals.ParseInt(offset).Some? && Numerals.ParseInt(limit).Some?
    ensures NewCaseQuery(domain, filters).Ok?
    ensures GetQuery(NewCaseQuery(domain, filters).value).from == Numerals.ParseInt(offset).value
    ensures GetQuery(NewCaseQuery(domain, filters).value).size
         == Numerals.ParseInt(offset).value + Numerals.ParseInt(limit).value
  {
  }

  /** Filters without paging parameters ask for the first 50 cases. */
  lemma DefaultPaging(domain: string, filters: Filters)
    requires Get(filters, "offset").None? && Get(filters, "limit").None?
    ensures NewCaseQuery(domain, filters).Ok?
    ensures GetQuery(NewCaseQuery(domain, filters).value).from == 0
    ensures GetQuery(NewCaseQuery(domain, filters).value).size == 50
  {
  }

  // ---------------------------------------------------------------------
  // get_filters_from_request_params
  // ---------------------------------------------------------------------

  /** Request parameters that never become case filters, in removal order. */
  const SystemProperties: seq<string> :=
    ["user_id", "closed", "format", "footprint", "ids_only", "use_cache", "hsph_hack"]

  /** The value of the last parameter whose decoded name is `key`. */
  function LastDecoded(params: Filters, unquote: string -> string, key: string): Option<string>
    decreases |params|
  {
    if |params| == 0 then None
    else if unquote(params[|params| - 1].0) == key then Some(params[|params| - 1].1)
    else LastDecoded(params[..|params| - 1], unquote, key)
  }

  /** `dict((_decode(k), v) for k, v in params.items())`. */
  function DecodeKeys(params: Filters, unquote: string -> string): (r: Filters)
    ensures NoDupKeys(r)
    ensures forall k :: Get(r, k) == LastDecoded(params, unquote, k)
    decreases |params|
  {
    if |params| == 0 then []
    else
      var n := |params|;
      Set(DecodeKeys(params[..n - 1], unquote), unquote(params[n - 1].0), params[n - 1].1)
  }

  /** A decoded key survives the optional top-level whitelist. */
  predicate TopLevelAllowed(key: string, whitelist: Option<set<string>>) {
    whitelist.None? || '/' in key || key in whitelist.value
  }

  /** A decoded key becomes a filter. */
  predicate FilterAllowed(key: string, whitelist: Option<set<string>>) {
    TopLevelAllowed(key, whitelist) && key !in SystemProperties
  }

  /** `get_filters_from_request_params(params, limit_top_level)`, with the
      URL decoding of parameter names given as `unquote`. */
  function FiltersFromRequestParams(params: Filters, unquote: string -> string,
                                    whitelist: Option<set<string>>): (r: Filters)
    ensures NoDupKeys(r)
    ensures forall k :: Get(r, k) == if FilterAllowed(k, whitelist) then LastDecoded(params, unquote, k) else None
  {
    var decoded := DecodeKeys(params, unquote);
    var limited :=
      match whitelist
      case None => decoded
      case Some(allowed) => Filter(decoded, key => '/' in key || key in allowed);
    RemoveAll(limited, SystemProperties)
  }
}

=== FILE: formplayer.dfy ===
/** Request/response marshalling for the forms backend ("touchforms" /
    formplayer), as in corehq/apps/formplayer_api/smsforms/api.py:
    - a form configuration and the request dict it translates to;
    - the SMS text prompt of a question event;
    - the classification of a backend answer into a question, a
      validation error, an HTTP error or an unhandleable answer;
    - the preparation of an outgoing request and the status-code checks
      on the answer.
    The HTTP exchange itself is a parameter: the model is given the
    backend's answer (or the fact that the connection failed). */
module Formplayer {
  import opened Wrappers
  import opened Json
  import Numerals
  import OrderedDict

  /** The exceptions the marshalling code raises or lets escape. */
  datatype Error =
    | XFormsConfigError               // XFormsConfigException
    | ValueError(message: string)
    | TypeError(message: string)
    | KeyError(key: string)
    | AssertionError(message: string)
    | TouchformsError(detail: Value, responseData: Dict)  // `response_data` defaults to {}
    | InvalidSessionId                // InvalidSessionIdException
    | Http404(reason: string)
    | HttpError(message: string)
    | ConnectionFailed                // socket.error from the transport
    | Unmodelled(what: string)        // Python behaviour outside this model

  type Dict = map<string, Value>

  // ---------------------------------------------------------------------
  // XFormsConfig
  // ---------------------------------------------------------------------

  /** `session_data` is either a dict or `None` (its default). */
  datatype Config = Config(
    formPath: Value,
    formContent: Value,
    language: Value,
    sessionData: Option<Dict>,
    preloaderData: Value,
    instanceContent: Value,
    domain: Value,
    restoreAs: Value,
    restoreAsCaseId: Value)

  /** Exactly one of a form path and a form content is given. */
  predicate ValidConfig(c: Config) {
    Truthy(c.formPath) != Truthy(c.formContent)
  }

  /** `XFormsConfig(...)`: refuses both or neither of path and content. */
  function NewConfig(
    formPath: Value, formContent: Value, language: Value,
    sessionData: Option<Dict>, preloaderData: Value, instanceContent: Value,
    domain: Value, restoreAs: Value, restoreAsCaseId: Value): (r: Result<Config, Error>)
    ensures r.Err? <==> Truthy(formPath) == Truthy(formContent)
    ensures r.Err? ==> r.error == XFormsConfigError
    ensures r.Ok? ==> ValidConfig(r.value)
    ensures r.Ok? ==> r.value == Config(formPath, formContent, language, sessionData, preloaderData,
                                        instanceContent, domain, restoreAs, restoreAsCaseId)
  {
    if Truthy(formPath) == Truthy(formContent) then Err(XFormsConfigError)
    else Ok(Config(formPath, formContent, language, sessionData, preloaderData,
                   instanceContent, domain, restoreAs, restoreAsCaseId))
  }

  const NoRestoreAsMessage := "Unable to determine 'restore as' contact for formplayer"
  const NoneNotIterableMessage := "argument of type 'NoneType' is not iterable"

  function SessionDataValue(sd: Option<Dict>): Value {
    match sd
    case Some(m) => Obj(m)
    case None => Null
  }

  /** The candidate entries of the request, in the source's order. */
  function ListedPairs(c: Config): seq<(string, Value)> {
    [("action", Str("new-form")),
     ("form-name", c.formPath),
     ("form-content", c.formContent),
     ("instance-content", c.instanceContent),
     ("preloader-data", c.preloaderData),
     ("session-data", SessionDataValue(c.sessionData)),
     ("lang", c.language),
     ("form-url", c.formPath)]
  }

  /** `dict([x for x in pairs if x[1]])` for pairs with distinct keys. */
  function KeepTruthy(pairs: seq<(string, Value)>): (r: Dict)
    requires OrderedDict.NoDupKeys(pairs)
    ensures forall i :: 0 <= i < |pairs| ==> (pairs[i].0 in r <==> Truthy(pairs[i].1))
    ensures forall i :: 0 <= i < |pairs| && Truthy(pairs[i].1) ==> r[pairs[i].0] == pairs[i].1
    ensures r.Keys <= set i | 0 <= i < |pairs| :: pairs[i].0
  {
    map i | 0 <= i < |pairs| && Truthy(pairs[i].1) :: pairs[i].0 := pairs[i].1
  }

  /** `add_key_helper`: copy `key` from the session data when it is there. */
  function AddKey(ret: Dict, key: string, sessionData: Dict): (r: Dict)
    ensures key in sessionData ==> key in r && r[key] == sessionData[key]
    ensures key !in sessionData ==> r == ret
    ensures forall k :: k != key ==> (k in r <==> k in ret) && (k in r ==> r[k] == ret[k])
    ensures r.Keys <= ret.Keys + {key}
  {
    if key in sessionData then ret[key := sessionData[key]] else ret
  }

  /** `key` is present exactly when `v` is truthy, and then holds `v`. */
  predicate Entry(d: Dict, key: string, v: Value) {
    (key in d <==> Truthy(v)) && (key in d ==> d[key] == v)
  }

  /** `key` is present exactly when the session data has it, with its value. */
  predicate CopiedEntry(d: Dict, key: string, sessionData: Dict) {
    (key in d <==> key in sessionData) && (key in d ==> d[key] == sessionData[key])
  }

  /** The session-data keys `get_touchforms_dict` copies. */
  const SessionKeys: set<string> := {"username", "domain", "app_id"}

  const RestoreKeys: set<string> := {"restoreAsCaseId", "restoreAs"}

  /** The entries taken from the configuration's own fields. */
  predicate HasListedEntries(c: Config, sd: Dict, d: Dict) {
    && "action" in d && d["action"] == Str("new-form")
    && Entry(d, "form-name", c.formPath)
    && Entry(d, "form-url", c.formPath)
    && Entry(d, "form-content", c.formContent)
    && Entry(d, "instance-content", c.instanceContent)
    && Entry(d, "preloader-data", c.preloaderData)
    && Entry(d, "session-data", Obj(sd))
    && Entry(d, "lang", c.language)
  }

  /** The entries taken from the configuration itself and from its session data. */
  predicate HasConfigEntries(c: Config, sd: Dict, d: Dict) {
    && HasListedEntries(c, sd, d)
    && CopiedEntry(d, "username", sd)
    && CopiedEntry(d, "domain", sd)
    && CopiedEntry(d, "app_id", sd)
  }

  /** What the request dict for a configuration must look like. */
  predicate IsTouchformsDict(c: Config, d: Dict)
    requires c.sessionData.Some?
  {
    && HasConfigEntries(c, c.sessionData.value, d)
    && ("restoreAsCaseId" in d <==> Truthy(c.restoreAsCaseId))
    && ("restoreAs" in d <==> !Truthy(c.restoreAsCaseId))
    && ("restoreAsCaseId" in d ==> d["restoreAsCaseId"] == c.restoreAsCaseId)
    && ("restoreAs" in d ==> d["restoreAs"] == c.restoreAs)
    && d.Keys <= ListedKeys + SessionKeys + RestoreKeys
  }

  const ListedKeys: set<string> :=
    {"action", "form-name", "form-content", "instance-content", "preloader-data",
     "session-data", "lang", "form-url"}

  lemma ListedPairsDistinct(c: Config)
    ensures OrderedDict.NoDupKeys(ListedPairs(c))
  {
  }

  /** The listed entries whose value is truthy, each with its configured value. */
  lemma ListedEntries(c: Config, sd: Dict)
    requires c.sessionData == Some(sd)
    ensures OrderedDict.NoDupKeys(ListedPairs(c))
    ensures HasListedEntries(c, sd, KeepTruthy(ListedPairs(c)))
    ensures KeepTruthy(ListedPairs(c)).Keys <= ListedKeys
  {
    var pairs := ListedPairs(c);
    ListedPairsDistinct(c);
    KeepTruthyEntry(pairs, 0);
    KeepTruthyEntry(pairs, 1);
    KeepTruthyEntry(pairs, 2);
    KeepTruthyEntry(pairs, 3);
    KeepTruthyEntry(pairs, 4);
    KeepTruthyEntry(pairs, 5);
    KeepTruthyEntry(pairs, 6);
    KeepTruthyEntry(pairs, 7);
    ListedKeysBound(c);
  }

  /** The request starts with no key beyond the listed ones. */
  lemma ListedKeysBound(c: Config)
    ensures OrderedDict.NoDupKeys(ListedPairs(c))
    ensures KeepTruthy(ListedPairs(c)).Keys <= ListedKeys
  {
    var pairs := ListedPairs(c);
    ListedPairsDistinct(c);
    assert (set i | 0 <= i < |pairs| :: pairs[i].0) <= ListedKeys;
  }

  /** Each listed pair of distinct keys appears exactly when its value is truthy. */
  lemma KeepTruthyEntry(pairs: seq<(string, Value)>, i: nat)
    requires OrderedDict.NoDupKeys(pairs) && i < |pairs|
    ensures Entry(KeepTruthy(pairs), pairs[i].0, pairs[i].1)
  {
  }

  /** Copying a session key leaves the listed entries alone. */
  lemma AddKeyKeepsListed(c: Config, sd: Dict, d: Dict, key: string)
    requires HasListedEntries(c, sd, d)
    requires key !in ListedKeys
    ensures HasListedEntries(c, sd, AddKey(d, key, sd))
  {
  }

  /** The request before the "restore as" entry: listed entries, then session keys. */
  function ConfigEntries(c: Config, sd: Dict): (ret: Dict)
    requires c.sessionData == Some(sd)
    ensures HasConfigEntries(c, sd, ret)
    ensures ret.Keys <= ListedKeys + SessionKeys
  {
    ListedEntries(c, sd);
    SessionKeysFresh();
    var base := KeepTruthy(ListedPairs(c));
    var withUser := AddKey(base, "username", sd);
    AddKeyKeepsListed(c, sd, base, "username");
    var withDomain := AddKey(withUser, "domain", sd);
    AddKeyKeepsListed(c, sd, withUser, "domain");
    var ret := AddKey(withDomain, "app_id", sd);
    AddKeyKeepsListed(c, sd, withDomain, "app_id");
    ret
  }

  /** The copied session keys are distinct from each other and from the listed keys. */
  lemma SessionKeysFresh()
    ensures SessionKeys !! ListedKeys
    ensures "username" in SessionKeys && "domain" in SessionKeys && "app_id" in SessionKeys
    ensures "username" != "domain" && "username" != "app_id" && "domain" != "app_id"
  {
  }

  /** Adding a "restore as" entry keeps the entries already built. */
  lemma AddRestoreEntry(c: Config, sd: Dict, ret: Dict, key: string, v: Value)
    requires HasConfigEntries(c, sd, ret) && ret.Keys <= ListedKeys + SessionKeys
    requires key in RestoreKeys
    ensures HasConfigEntries(c, sd, ret[key := v])
    ensures ret[key := v].Keys <= ListedKeys + SessionKeys + RestoreKeys
    ensures forall k :: k in RestoreKeys ==> (k in ret[key := v] <==> k == key)
  {
    assert RestoreKeys !! (ListedKeys + SessionKeys);
  }

  /** `get_touchforms_dict`. */
  function TouchformsDict(c: Config): (r: Result<Dict, Error>)
    ensures r.Ok? <==> c.sessionData.Some? && (Truthy(c.restoreAsCaseId) || Truthy(c.restoreAs))
    ensures c.sessionData.None? ==> r == Err(TypeError(NoneNotIterableMessage))
    ensures c.sessionData.Some? && !Truthy(c.restoreAsCaseId) && !Truthy(c.restoreAs) ==>
              r == Err(ValueError(NoRestoreAsMessage))
    ensures r.Ok? ==> IsTouchformsDict(c, r.value)
  {
    match c.sessionData
    case None => Err(TypeError(NoneNotIterableMessage))
    case Some(sd) =>
      var ret := ConfigEntries(c, sd);
      if Truthy(c.restoreAsCaseId) then
        AddRestoreEntry(c, sd, ret, "restoreAsCaseId", c.restoreAsCaseId);
        Ok(ret["restoreAsCaseId" := c.restoreAsCaseId])
      else if Truthy(c.restoreAs) then
        AddRestoreEntry(c, sd, ret, "restoreAs", c.restoreAs);
        Ok(ret["restoreAs" := c.restoreAs])
      else Err(ValueError(NoRestoreAsMessage))
  }

  /** A configuration that was accepted names its form exactly one way:
      the request carries `form-name` (and `form-url`) or `form-content`,
      never both and never neither. */
  lemma AcceptedConfigNamesFormOnce(
    formPath: Value, formContent: Value, language: Value,
    sessionData: Option<Dict>, preloaderData: Value, instanceContent: Value,
    domain: Value, restoreAs: Value, restoreAsCaseId: Value)
    requires NewConfig(formPath, formContent, language, sessionData, preloaderData,
                       instanceContent, domain, restoreAs, restoreAsCaseId).Ok?
    ensures var c := NewConfig(formPath, formContent, language, sessionData, preloaderData,
                               instanceContent, domain, restoreAs, restoreAsCaseId).value;
            TouchformsDict(c).Ok? ==>
              var d := TouchformsDict(c).value;
              && ("form-name" in d <==> "form-content" !in d)
              && ("form-url" in d <==> "form-name" in d)
  {
    var c := NewConfig(formPath, formContent, language, sessionData, preloaderData,
                       instanceContent, domain, restoreAs, restoreAsCaseId).value;
    if TouchformsDict(c).Ok? {
      var d := TouchformsDict(c).value;
      assert IsTouchformsDict(c, d);
      assert Entry(d, "form-name", c.formPath) && Entry(d, "form-content", c.formContent);
    }
  }

  // ---------------------------------------------------------------------
  // XformsEvent and the SMS text prompt
  // ---------------------------------------------------------------------

  /** A question event; absent optional fields take the source's defaults. */
  datatype Event = Event(
    raw: Dict,
    eventType: Value,
    caption: Value,
    dataType: Value,
    output: Value,
    choices: Value)

  const NotSubscriptableMessage := "event is not subscriptable by a string key"

  /** `XformsEvent(datadict)`: `type` is mandatory, the rest default. */
  function ParseEvent(v: Value): (r: Result<Event, Error>)
    ensures r.Ok? <==> v.Obj? && "type" in v.fields
    ensures v.Obj? && "type" !in v.fields ==> r == Err(KeyError("type"))
    ensures !v.Obj? ==> r == Err(TypeError(NotSubscriptableMessage))
    ensures r.Ok? ==> r.value.raw == v.fields && r.value.eventType == v.fields["type"]
    ensures r.Ok? ==> r.value.caption == Get(v.fields, "caption", Str(""))
    ensures r.Ok? ==> r.value.dataType == Get(v.fields, "datatype", Str(""))
    ensures r.Ok? ==> r.value.output == Get(v.fields, "output", Str(""))
    ensures r.Ok? ==> r.value.choices == Get(v.fields, "choices", Null)
  {
    match v
    case Obj(d) =>
      if "type" !in d then Err(KeyError("type"))
      else Ok(Event(d, d["type"], Get(d, "caption", Str("")), Get(d, "datatype", Str("")),
                    Get(d, "output", Str("")), Get(d, "choices", Null)))
    case _ => Err(TypeError(NotSubscriptableMessage))
  }

  /** `"{}:{}".format(i, choice)` for the 1-based position `i`. */
  function ChoiceEntry(i: nat, choice: string): string {
    Numerals.NatToString(i) + ":" + choice
  }

  /** The choices numbered from 1, in order. */
  function NumberedChoices(choices: seq<string>): (r: seq<string>)
    ensures |r| == |choices|
    ensures forall i :: 0 <= i < |r| ==> r[i] == ChoiceEntry(i + 1, choices[i])
    decreases |choices|
  {
    if |choices| == 0 then []
    else
      var n := |choices|;
      NumberedChoices(choices[..n - 1]) + [ChoiceEntry(n, choices[n - 1])]
  }

  /** `sep.join(parts)`. */
  function Join(sep: string, parts: seq<string>): string
    decreases |parts|
  {
    if |parts| == 0 then ""
    else if |parts| == 1 then parts[0]
    else Join(sep, parts[..|parts| - 1]) + sep + parts[|parts| - 1]
  }

  /** Joining a list with one more part in front puts that part and a
      separator before the join of the rest. */
  lemma {:induction false} JoinCons(sep: string, x: string, parts: seq<string>)
    requires 1 <= |parts|
    ensures Join(sep, [x] + parts) == x + sep + Join(sep, parts)
    decreases |parts|
  {
    var n := |parts|;
    var whole := [x] + parts;
    if n == 1 {
      assert whole[..1] == [x];
    } else {
      assert whole[..n] == [x] + parts[..n - 1];
      JoinCons(sep, x, parts[..n - 1]);
    }
  }

  /** `select_to_text_compact` on text: "caption 1:a, 2:b." */
  function Compact(caption: string, choices: seq<string>): string {
    caption + " " + Join(", ", NumberedChoices(choices)) + "."
  }

  /** The compact rendering built one choice at a time, the way the join
      walks the enumerated choices. */
  method RenderCompact(caption: string, choices: seq<string>) returns (text: string)
    ensures text == Compact(caption, choices)
    ensures |choices| == 0 ==> text == caption + " ."
  {
    var body := "";
    var i := 0;
    while i < |choices|
      invariant 0 <= i <= |choices|
      invariant body == Join(", ", NumberedChoices(choices[..i]))
    {
      assert choices[..i + 1][..i] == choices[..i];
      var entry := ChoiceEntry(i + 1, choices[i]);
      body := if i == 0 then entry else body + ", " + entry;
      i := i + 1;
    }
    assert choices[..|choices|] == choices;
    text := caption + " " + body + ".";
  }

  /** Python `str()` of each list item; lists and dicts among the items are
      outside this model. */
  function ItemTexts(items: seq<Value>): (r: Result<seq<string>, Error>)
    ensures r.Ok? <==> forall i :: 0 <= i < |items| ==> ScalarText(items[i]).Some?
    ensures r.Ok? ==> |r.value| == |items|
    ensures r.Ok? ==> forall i :: 0 <= i < |items| ==> ScalarText(items[i]) == Some(r.value[i])
    decreases |items|
  {
    if |items| == 0 then Ok([])
    else
      var n := |items|;
      var prefix := items[..n - 1];
      assert forall i :: 0 <= i < n - 1 ==> prefix[i] == items[i];
      var front :- ItemTexts(prefix);
      var last := ScalarText(items[n - 1]);
      if last.None? then Err(Unmodelled("str() of a nested list or dict"))
      else Ok(front + [last.value])
  }

  /** The one-character strings that iterating over a string yields. */
  function Characters(s: string): (r: seq<string>)
    ensures |r| == |s|
    ensures forall i :: 0 <= i < |s| ==> r[i] == [s[i]]
  {
    seq(|s|, i requires 0 <= i < |s| => [s[i]])
  }

  /** What `enumerate(choices)` walks over, as text. */
  function ChoiceTexts(choices: Value): (r: Result<seq<string>, Error>)
    ensures choices.List? ==> r == ItemTexts(choices.items)
    ensures choices.Str? ==> r == Ok(Characters(choices.s))
    ensures choices.Null? || choices.Bool? || choices.Int? ==> r.Err? && r.error.TypeError?
  {
    match choices
    case List(items) => ItemTexts(items)
    case Str(s) => Ok(Characters(s))
    case Obj(_) => Err(Unmodelled("iteration order of a dict's keys"))
    case _ => Err(TypeError("object is not iterable"))
  }

  /** The strings of a list whose items are all strings. */
  function Strings(items: seq<Value>): (r: seq<string>)
    requires forall i :: 0 <= i < |items| ==> items[i].Str?
    ensures |r| == |items|
    ensures forall i :: 0 <= i < |items| ==> r[i] == items[i].s
  {
    seq(|items|, i requires 0 <= i < |items| => items[i].s)
  }

  /** `select_to_text_compact(caption, choices)`. */
  function SelectToTextCompact(caption: Value, choices: Value): (r: Result<string, Error>)
    ensures choices.List? && ScalarText(caption).Some? && ItemTexts(choices.items).Ok? ==>
              r == Ok(Compact(ScalarText(caption).value, ItemTexts(choices.items).value))
    ensures caption.Str? && choices.List? && (forall i :: 0 <= i < |choices.items| ==> choices.items[i].Str?) ==>
              r == Ok(Compact(caption.s, Strings(choices.items)))
    ensures choices.Str? && ScalarText(caption).Some? ==>
              r == Ok(Compact(ScalarText(caption).value, Characters(choices.s)))
    ensures choices.Null? || choices.Bool? || choices.Int? ==> r.Err? && r.error.TypeError?
  {
    var texts :- ChoiceTexts(choices);
    var captionText := ScalarText(caption);
    if captionText.None? then Err(Unmodelled("str() of a list or dict caption"))
    else
      assert choices.List? && (forall i :: 0 <= i < |choices.items| ==> choices.items[i].Str?) ==>
        texts == Strings(choices.items);
      Ok(Compact(captionText.value, texts))
  }

  predicate IsSelect(dataType: Value) {
    dataType == Str("select") || dataType == Str("multiselect")
  }

  /** `XformsEvent.get_text_prompt`: the compact rendering for select
      questions, the bare caption otherwise. */
  function TextPrompt(e: Event): (r: Result<Value, Error>)
    ensures !IsSelect(e.dataType) ==> r == Ok(e.caption)
    ensures IsSelect(e.dataType) && "choices" !in e.raw ==> r == Err(KeyError("choices"))
    ensures IsSelect(e.dataType) && "choices" in e.raw ==>
              match SelectToTextCompact(e.caption, e.raw["choices"])
              case Ok(text) => r == Ok(Str(text))
              case Err(err) => r == Err(err)
  {
    if IsSelect(e.dataType) then
      if "choices" !in e.raw then Err(KeyError("choices"))
      else
        var text :- SelectToTextCompact(e.caption, e.raw["choices"]);
        Ok(Str(text))
    else Ok(e.caption)
  }

  // ---------------------------------------------------------------------
  // XformsResponse
  // ---------------------------------------------------------------------

  datatype HttpErrorInfo = HttpErrorInfo(statusCode: Value, args: Value, url: Value)

  /** A classified backend answer. `textPrompt` is `None` where the source
      leaves the attribute unset; `httpError` is set for HTTP errors only. */
  datatype Response = Response(
    raw: Dict,
    event: Option<Event>,
    isError: bool,
    error: Value,
    textPrompt: Option<Value>,
    seqId: Value,
    sessionId: Value,
    status: Value,
    httpError: Option<HttpErrorInfo>)

  const ValidationErrorStatus := Str("validation-error")
  const HttpErrorStatus := Str("http-error")
  const DefaultValidationReason := Str("that is not a legal answer")
  const NoEventForErrorsMessage := "There should be no touchforms event for errors"

  /** The answer carries a (non-null) event. */
  predicate HasEvent(d: Dict) {
    "event" in d && d["event"] != Null
  }

  function Status(d: Dict): Value {
    Get(d, "status", Str(""))
  }

  /** The event of an answer and its text prompt, when there is one. */
  function ReadEvent(d: Dict): (r: Result<Option<(Event, Value)>, Error>)
    ensures !HasEvent(d) ==> r == Ok(None)
    ensures HasEvent(d) && ParseEvent(d["event"]).Err? ==> r == Err(ParseEvent(d["event"]).error)
    ensures HasEvent(d) && ParseEvent(d["event"]).Ok? ==>
              match TextPrompt(ParseEvent(d["event"]).value)
              case Ok(prompt) => r == Ok(Some((ParseEvent(d["event"]).value, prompt)))
              case Err(err) => r == Err(err)
    ensures r.Ok? && HasEvent(d) ==> r.value.Some? && ParseEvent(d["event"]) == Ok(r.value.value.0)
    ensures r.Ok? && HasEvent(d) ==> TextPrompt(r.value.value.0) == Ok(r.value.value.1)
  {
    if HasEvent(d) then
      var e :- ParseEvent(d["event"]);
      var prompt :- TextPrompt(e);
      Ok(Some((e, prompt)))
    else Ok(None)
  }

  /** `XformsResponse(datadict)`. */
  function ClassifyResponse(d: Dict): (r: Result<Response, Error>)
    ensures r.Ok? ==> (r.value.isError <==> Status(d) == ValidationErrorStatus || Status(d) == HttpErrorStatus)
    ensures r.Ok? ==> r.value.raw == d && r.value.status == Status(d)
    ensures r.Ok? ==> r.value.seqId == Get(d, "seq_id", Str("")) && r.value.sessionId == Get(d, "session_id", Str(""))
    ensures Status(d) == ValidationErrorStatus && !HasEvent(d) ==>
              r.Ok? && r.value.isError && r.value.event.None? &&
              r.value.textPrompt == Some(Get(d, "reason", DefaultValidationReason)) &&
              r.value.error == Null && r.value.httpError.None?
    ensures Status(d) == HttpErrorStatus && !HasEvent(d) ==>
              r.Ok? && r.value.isError && r.value.event.None? && r.value.textPrompt.None? &&
              r.value.error == Get(d, "error", Null) &&
              r.value.httpError == Some(HttpErrorInfo(Get(d, "status_code", Null), Get(d, "args", Null), Get(d, "url", Null)))
    ensures ReadEvent(d).Err? ==> r == Err(ReadEvent(d).error)
    ensures (Status(d) == ValidationErrorStatus || Status(d) == HttpErrorStatus) && HasEvent(d) ==> r.Err?
    ensures (Status(d) == ValidationErrorStatus || Status(d) == HttpErrorStatus) && ReadEvent(d).Ok? && HasEvent(d) ==>
              r == Err(AssertionError(NoEventForErrorsMessage))
    ensures Status(d) != ValidationErrorStatus && Status(d) != HttpErrorStatus && !HasEvent(d) ==>
              r == Err(TouchformsError(Obj(d), map[]))
    ensures Status(d) != ValidationErrorStatus && Status(d) != HttpErrorStatus && ReadEvent(d).Ok? && HasEvent(d) ==>
              && r.Ok? && !r.value.isError
              && r.value.event == Some(ReadEvent(d).value.value.0)
              && r.value.textPrompt == Some(ReadEvent(d).value.value.1)
    ensures r.Ok? && !r.value.isError ==>
              HasEvent(d) && r.value.event.Some? && ParseEvent(d["event"]) == Ok(r.value.event.value) &&
              r.value.textPrompt.Some? && TextPrompt(r.value.event.value) == Ok(r.value.textPrompt.value)
  {
    var ev :- ReadEvent(d);
    var status := Status(d);
    var seqId := Get(d, "seq_id", Str(""));
    var sessionId := Get(d, "session_id", Str(""));
    if status == ValidationErrorStatus then
      if ev.Some? then Err(AssertionError(NoEventForErrorsMessage))
      else Ok(Response(d, None, true, Null, Some(Get(d, "reason", DefaultValidationReason)),
                       seqId, sessionId, status, None))
    else if status == HttpErrorStatus then
      if ev.Some? then Err(AssertionError(NoEventForErrorsMessage))
      else
        var info := HttpErrorInfo(Get(d, "status_code", Null), Get(d, "args", Null), Get(d, "url", Null));
        Ok(Response(d, None, true, Get(d, "error", Null), None, seqId, sessionId, status, Some(info)))
    else if ev.None? then Err(TouchformsError(Obj(d), map[]))
    else Ok(Response(d, Some(ev.value.0), false, Null, Some(ev.value.1), seqId, sessionId, status, None))
  }

  const ServerDownMessage := "No response from server. Please contact your administrator for help."

  /** `XformsResponse.server_down()`: an HTTP-error answer with a fixed message. */
  function ServerDown(): (r: Response)
    ensures r.isError && r.status == HttpErrorStatus && r.event.None?
    ensures r.error == Str(ServerDownMessage)
    ensures r.httpError == Some(HttpErrorInfo(Null, Null, Null))
  {
    var body := map["status" := HttpErrorStatus, "error" := Str(ServerDownMessage)];
    assert Status(body) == HttpErrorStatus && !HasEvent(body);
    ClassifyResponse(body).value
  }

  /** Every answer falls into exactly one class: a validation error, an
      HTTP error, a question, or an exception. */
  lemma ClassifyResponsePartition(d: Dict)
    ensures var r := ClassifyResponse(d);
      && (r.Ok? && r.value.isError && r.value.httpError.None? <==>
            Status(d) == ValidationErrorStatus && !HasEvent(d))
      && (r.Ok? && r.value.isError && r.value.httpError.Some? <==>
            Status(d) == HttpErrorStatus && !HasEvent(d))
      && (r.Ok? && !r.value.isError <==>
            Status(d) != ValidationErrorStatus && Status(d) != HttpErrorStatus && HasEvent(d) && ReadEvent(d).Ok?)
  {
  }

  /** The prompt of the example event in the source's documentation. */
  lemma CompactExample()
    ensures Compact("What's your favorite color?", ["red", "green", "blue"])
         == "What's your favorite color? 1:red, 2:green, 3:blue."
  {
    NumberedExample();
    JoinExample();
  }

  lemma NumberedExample()
    ensures NumberedChoices(["red", "green", "blue"]) == ["1:red", "2:green", "3:blue"]
  {
    var entries := NumberedChoices(["red", "green", "blue"]);
    assert Numerals.NatToString(1) == "1" && Numerals.NatToString(2) == "2" && Numerals.NatToString(3) == "3";
    assert entries[0] == "1:red" && entries[1] == "2:green" && entries[2] == "3:blue";
  }

  lemma JoinExample()
    ensures Join(", ", ["1:red", "2:green", "3:blue"]) == "1:red, 2:green, 3:blue"
  {
    var entries := ["1:red", "2:green", "3:blue"];
    assert entries[..2] == ["1:red", "2:green"];
    assert entries[..2][..1] == ["1:red"];
    assert Join(", ", entries[..2]) == "1:red, 2:green";
  }

  /** The question event shown in the source's documentation. */
  const ColorQuestion: Value := Obj(map[
    "datatype" := Str("select"), "style" := Obj(map[]),
    "choices" := List([Str("red"), Str("green"), Str("blue")]),
    "caption" := Str("What's your favorite color?"), "type" := Str("question"),
    "answer" := Null, "required" := Int(0), "ix" := Str("1"), "help" := Null])

  const ColorCaption := "What's your favorite color?"
  const ColorChoices: seq<Value> := [Str("red"), Str("green"), Str("blue")]

  /** The documented event, parsed and prompted, gives the compact rendering. */
  lemma ColorQuestionPrompt()
    ensures ParseEvent(ColorQuestion).Ok?
    ensures TextPrompt(ParseEvent(ColorQuestion).value)
         == Ok(Str("What's your favorite color? 1:red, 2:green, 3:blue."))
  {
    ColorQuestionParsed();
    ColorChoicesRendered();
  }

  lemma ColorQuestionParsed()
    ensures ParseEvent(ColorQuestion).Ok?
    ensures var e := ParseEvent(ColorQuestion).value;
            && e.dataType == Str("select") && e.caption == Str(ColorCaption)
            && "choices" in e.raw && e.raw["choices"] == List(ColorChoices)
  {
    assert "type" in ColorQuestion.fields;
    assert ColorQuestion.fields["datatype"] == Str("select");
    assert ColorQuestion.fields["caption"] == Str(ColorCaption);
    assert ColorQuestion.fields["choices"] == List(ColorChoices);
  }

  lemma ColorChoicesRendered()
    ensures SelectToTextCompact(Str(ColorCaption), List(ColorChoices))
         == Ok("What's your favorite color? 1:red, 2:green, 3:blue.")
  {
    assert Strings(ColorChoices) == ["red", "green", "blue"];
    CompactExample();
  }

  // ---------------------------------------------------------------------
  // Outgoing requests
  // ---------------------------------------------------------------------

  /** `_get_formplayer_session_data`: one question per screen, prompt
      navigation, and the session id under both spellings when either is given. */
  function NormalizeSession(data: Dict): (r: Dict)
    ensures "oneQuestionPerScreen" in r && r["oneQuestionPerScreen"] == Bool(true)
    ensures "nav_mode" in r && r["nav_mode"] == Str("prompt")
    ensures "session_id" in data ==>
              "session_id" in r && "session-id" in r &&
              r["session_id"] == data["session_id"] && r["session-id"] == data["session_id"]
    ensures "session_id" !in data && "session-id" in data ==>
              "session_id" in r && "session-id" in r &&
              r["session_id"] == data["session-id"] && r["session-id"] == data["session-id"]
    ensures "session_id" !in data && "session-id" !in data ==>
              "session_id" !in r && "session-id" !in r
    ensures forall k :: k in data && k !in {"oneQuestionPerScreen", "nav_mode", "session_id", "session-id"} ==>
              k in r && r[k] == data[k]
    ensures r.Keys <= data.Keys + {"oneQuestionPerScreen", "nav_mode", "session_id", "session-id"}
  {
    var d := data["oneQuestionPerScreen" := Bool(true)]["nav_mode" := Str("prompt")];
    if "session_id" in d then
      var sessionId := d["session_id"];
      d["session_id" := sessionId]["session-id" := sessionId]
    else if "session-id" in d then
      var sessionId := d["session-id"];
      d["session_id" := sessionId]["session-id" := sessionId]
    else d
  }

  /** Normalising twice is normalising once. */
  lemma NormalizeSessionIdempotent(data: Dict)
    ensures NormalizeSession(NormalizeSession(data)) == NormalizeSession(data)
  {
  }

  const ExpectedDomainMessage := "Expected domain"

  /** The checks and rewrites `_post_data` applies before sending: a truthy
      domain, the normalised session keys, and an action to address. */
  function PrepareRequest(data: Dict): (r: Result<Dict, Error>)
    ensures !Truthy(Get(data, "domain", Null)) ==> r == Err(ValueError(ExpectedDomainMessage))
    ensures Truthy(Get(data, "domain", Null)) && "action" !in data ==> r == Err(KeyError("action"))
    ensures r.Ok? <==> Truthy(Get(data, "domain", Null)) && "action" in data
    ensures r.Ok? ==> r.value == NormalizeSession(data)
  {
    if !Truthy(Get(data, "domain", Null)) then Err(ValueError(ExpectedDomainMessage))
    else
      var d := NormalizeSession(data);
      if "action" !in d then Err(KeyError("action")) else Ok(d)
  }

  /** The backend's HTTP answer; `body` is its parsed JSON object. */
  datatype HttpResponse = HttpResponse(statusCode: int, reason: string, url: string, body: Dict)

  /** What the HTTP exchange gave: an answer, or a socket-level failure. */
  datatype Transport = SocketError | Answered(response: HttpResponse)

  predicate IsServerErrorCode(code: int) {
    500 <= code < 600
  }

  /** The errors of `_post_data` that are Python `OSError`s: the transport's
      socket failure and the `requests.HTTPError` of a 5xx answer. */
  predicate IsOSError(e: Error) {
    e == ConnectionFailed || e.HttpError?
  }

  /** The status-code checks of `_post_data`. */
  function CheckStatus(response: HttpResponse): (r: Result<Dict, Error>)
    ensures response.statusCode == 404 ==> r == Err(Http404(response.reason))
    ensures IsServerErrorCode(response.statusCode) ==>
              r == Err(HttpError(Numerals.IntToString(response.statusCode) + " Server Error: "
                                 + response.reason + " for url: " + response.url))
    ensures r.Ok? <==> response.statusCode != 404 && !IsServerErrorCode(response.statusCode)
    ensures r.Ok? ==> r.value == response.body
  {
    if response.statusCode == 404 then Err(Http404(response.reason))
    else if IsServerErrorCode(response.statusCode) then
      Err(HttpError(Numerals.IntToString(response.statusCode) + " Server Error: "
                    + response.reason + " for url: " + response.url))
    else Ok(response.body)
  }

  /** The three outcomes of the status checks split the status codes, and
      the 5xx message opens with the code's decimal text, which reads back
      as the code. */
  lemma CheckStatusOutcomes(response: HttpResponse)
    ensures CheckStatus(response).Err? && CheckStatus(response).error.Http404? <==> response.statusCode == 404
    ensures CheckStatus(response).Err? && CheckStatus(response).error.HttpError? <==>
              IsServerErrorCode(response.statusCode)
    ensures CheckStatus(response).Ok? || CheckStatus(response).error.Http404? || CheckStatus(response).error.HttpError?
    ensures IsServerErrorCode(response.statusCode) ==>
              var message := CheckStatus(response).error.message;
              var n := |Numerals.IntToString(response.statusCode)|;
              n < |message| && message[n] == ' ' && Numerals.ParseInt(message[..n]) == Some(response.statusCode)
  {
    if IsServerErrorCode(response.statusCode) {
      var code := Numerals.IntToString(response.statusCode);
      var message := CheckStatus(response).error.message;
      assert message == code + (" Server Error: " + response.reason + " for url: " + response.url);
      assert message[..|code|] == code;
      Numerals.ParseIntOfIntToString(response.statusCode);
    }
  }

  /** `_post_data(data)` against a given transport outcome. */
  function PostData(data: Dict, transport: Transport): (r: Result<Dict, Error>)
    ensures !Truthy(Get(data, "domain", Null)) ==> r == Err(ValueError(ExpectedDomainMessage))
    ensures PrepareRequest(data).Err? ==> r == Err(PrepareRequest(data).error)
    ensures PrepareRequest(data).Ok? && transport.SocketError? ==> r == Err(ConnectionFailed)
    ensures PrepareRequest(data).Ok? && transport.Answered? ==> r == CheckStatus(transport.response)
    ensures r.Ok? ==> PrepareRequest(data).Ok? && transport.Answered?
  {
    var request :- PrepareRequest(data);
    match transport
    case SocketError => Err(ConnectionFailed)
    case Answered(response) => CheckStatus(response)
  }

  /** `_get_response(data)`: `except socket.error` catches every `OSError`.
      In Python 3 that includes `requests.HTTPError` (a `RequestException`,
      itself an `IOError`), so a socket failure and a 5xx answer both become
      the server-down answer. The domain `ValueError`, the missing-action
      `KeyError` and Django's `Http404` are not `OSError`s and escape. */
  function GetResponse(data: Dict, transport: Transport): (r: Result<Response, Error>)
    ensures !Truthy(Get(data, "domain", Null)) ==> r == Err(ValueError(ExpectedDomainMessage))
    ensures PrepareRequest(data).Err? ==> r == Err(PrepareRequest(data).error)
    ensures PrepareRequest(data).Ok? && transport.SocketError? ==> r == Ok(ServerDown())
    ensures PrepareRequest(data).Ok? && transport.Answered? && transport.response.statusCode == 404 ==>
              r == Err(Http404(transport.response.reason))
    ensures PrepareRequest(data).Ok? && transport.Answered? && IsServerErrorCode(transport.response.statusCode) ==>
              r == Ok(ServerDown())
    ensures PrepareRequest(data).Ok? && transport.Answered? && CheckStatus(transport.response).Ok? ==>
              r == ClassifyResponse(transport.response.body)
  {
    var posted := PostData(data, transport);
    if posted.Err? && IsOSError(posted.error) then Ok(ServerDown())
    else
      var body :- posted;
      ClassifyResponse(body)
  }

  /** `XFormsConfig.start_session`. */
  function StartSession(c: Config, transport: Transport): (r: Result<Response, Error>)
    ensures c.sessionData.None? ==> r == Err(TypeError(NoneNotIterableMessage))
    ensures c.sessionData.Some? && !Truthy(c.restoreAsCaseId) && !Truthy(c.restoreAs) ==>
              r == Err(ValueError(NoRestoreAsMessage))
    ensures TouchformsDict(c).Ok? ==> r == GetResponse(TouchformsDict(c).value, transport)
  {
    var data :- TouchformsDict(c);
    GetResponse(data, transport)
  }

  /** The configuration's own `domain` never reaches the request: a session
      starts only when the session data carries a truthy domain. */
  lemma StartSessionNeedsSessionDomain(c: Config, transport: Transport)
    requires c.sessionData.Some?
    requires !Truthy(Get(c.sessionData.value, "domain", Null))
    requires Truthy(c.restoreAsCaseId) || Truthy(c.restoreAs)
    ensures StartSession(c, transport) == Err(ValueError(ExpectedDomainMessage))
  {
    var d := TouchformsDict(c).value;
    assert CopiedEntry(d, "domain", c.sessionData.value);
    assert !Truthy(Get(d, "domain", Null));
  }

  // ---------------------------------------------------------------------
  // FormplayerInterface
  // ---------------------------------------------------------------------

  /** The request a `FormplayerInterface` sends for `action`. */
  function ActionRequest(action: string, sessionId: Value, domain: Value): (d: Dict)
    ensures d.Keys == {"action", "session-id", "domain"}
    ensures d["action"] == Str(action) && d["session-id"] == sessionId && d["domain"] == domain
  {
    map["action" := Str(action), "session-id" := sessionId, "domain" := domain]
  }

  /** The request `answer_question` sends: the interface request for
      `answer`, carrying the answer. */
  function AnswerRequest(sessionId: Value, domain: Value, answer: Value): (d: Dict)
    ensures d.Keys == {"action", "session-id", "answer", "domain"}
    ensures d["action"] == Str("answer") && d["session-id"] == sessionId
    ensures d["answer"] == answer && d["domain"] == domain
  {
    ActionRequest("answer", sessionId, domain)["answer" := answer]
  }

  /** An interface request with a truthy domain is sent with the session id
      under both spellings. */
  lemma ActionRequestPrepared(action: string, sessionId: Value, domain: Value)
    requires Truthy(domain)
    ensures PrepareRequest(ActionRequest(action, sessionId, domain)).Ok?
    ensures var d := PrepareRequest(ActionRequest(action, sessionId, domain)).value;
      && d["action"] == Str(action) && d["domain"] == domain
      && d["session_id"] == sessionId && d["session-id"] == sessionId
  {
    var request := ActionRequest(action, sessionId, domain);
    assert "session_id" !in request && "session-id" in request;
  }

  /** What every `FormplayerInterface` call answers, given the domain its
      request carries. */
  predicate InterfaceOutcome(domain: Value, transport: Transport, r: Result<Response, Error>) {
    && (!Truthy(domain) ==> r == Err(ValueError(ExpectedDomainMessage)))
    && (Truthy(domain) && transport.SocketError? ==> r == Ok(ServerDown()))
    && (Truthy(domain) && transport.Answered? && transport.response.statusCode == 404 ==>
          r == Err(Http404(transport.response.reason)))
    && (Truthy(domain) && transport.Answered? && IsServerErrorCode(transport.response.statusCode) ==>
          r == Ok(ServerDown()))
    && (Truthy(domain) && transport.Answered? && CheckStatus(transport.response).Ok? ==>
          r == ClassifyResponse(transport.response.body))
  }

  /** `answer_question`. */
  function AnswerQuestion(sessionId: Value, domain: Value, answer: Value, transport: Transport): (r: Result<Response, Error>)
    ensures r == GetResponse(AnswerRequest(sessionId, domain, answer), transport)
    ensures InterfaceOutcome(domain, transport, r)
  {
    var request := AnswerRequest(sessionId, domain, answer);
    assert Get(request, "domain", Null) == domain && "action" in request;
    GetResponse(request, transport)
  }

  /** `current_question` and `next`. */
  function Navigate(action: string, sessionId: Value, domain: Value, transport: Transport): (r: Result<Response, Error>)
    requires action == "current" || action == "next"
    ensures r == GetResponse(ActionRequest(action, sessionId, domain), transport)
    ensures InterfaceOutcome(domain, transport, r)
  {
    var request := ActionRequest(action, sessionId, domain);
    assert Get(request, "domain", Null) == domain && "action" in request;
    GetResponse(request, transport)
  }

  const SessionNotFound := Str("Form session not found")

  /** `get_raw_instance`: an answer carrying an `error` entry is an exception. */
  function GetRawInstance(sessionId: Value, domain: Value, transport: Transport): (r: Result<Dict, Error>)
    ensures r.Ok? ==> "error" !in r.value
    ensures PostData(ActionRequest("get-instance", sessionId, domain), transport).Err? ==> r.Err?
    ensures match PostData(ActionRequest("get-instance", sessionId, domain), transport)
            case Ok(body) =>
              && ("error" !in body ==> r == Ok(body))
              && ("error" in body && body["error"] == SessionNotFound ==> r == Err(InvalidSessionId))
              && ("error" in body && body["error"] != SessionNotFound ==> r == Err(TouchformsError(body["error"], map[])))
            case Err(e) => r == Err(e)
  {
    var body :- PostData(ActionRequest("get-instance", sessionId, domain), transport);
    if "error" in body then
      if body["error"] == SessionNotFound then Err(InvalidSessionId)
      else Err(TouchformsError(body["error"], map[]))
    else Ok(body)
  }
}

=== FILE: json.dfy ===
/** The JSON-like values exchanged with the forms backend, with the two
    pieces of Python semantics the marshalling code relies on: truthiness
    (`bool(x)`, `if x`, `x or y`) and `str(x)` for scalars. Floats are not
    part of this model. */
module Json {
  import opened Wrappers
  import Numerals

  datatype Value =
    | Null
    | Bool(b: bool)
    | Int(i: int)
    | Str(s: string)
    | List(items: seq<Value>)
    | Obj(fields: map<string, Value>)

  /** Python truthiness: `None`, `False`, `0`, `""`, `[]` and `{}` are false. */
  predicate Truthy(v: Value) {
    match v
    case Null => false
    case Bool(b) => b
    case Int(i) => i != 0
    case Str(s) => s != ""
    case List(items) => items != []
    case Obj(fields) => fields != map[]
  }

  /** `d.get(key, default)`. */
  function Get(d: map<string, Value>, key: string, default: Value): (v: Value)
    ensures key in d ==> v == d[key]
    ensures key !in d ==> v == default
  {
    if key in d then d[key] else default
  }

  /** Python `str(v)` for a scalar; `None` for a list or object, whose
      Python rendering is not part of this model. */
  function ScalarText(v: Value): (r: Option<string>)
    ensures r.None? <==> v.List? || v.Obj?
    ensures v.Str? ==> r == Some(v.s)
    ensures v.Null? ==> r == Some("None")
    ensures v.Bool? ==> r == Some(if v.b then "True" else "False")
    ensures v.Int? ==> r == Some(Numerals.IntToString(v.i))
  {
    match v
    case Null => Some("None")
    case Bool(b) => Some(if b then "True" else "False")
    case Int(i) => Some(Numerals.IntToString(i))
    case Str(s) => Some(s)
    case List(_) => None
    case Obj(_) => None
  }
}

=== FILE: numerals.dfy ===
/** Decimal text for integers: Python's `str(n)` / `"{}".format(n)` for an
    `int`, and the subset of `int(s)` that accepts an optional sign followed
    by ASCII digits. */
module Numerals {
  import opened Wrappers

  predicate IsDigit(c: char) {
    '0' <= c <= '9'
  }

  function DigitChar(d: nat): (c: char)
    requires d < 10
    ensures IsDigit(c)
  {
    "0123456789"[d]
  }

  function DigitValue(c: char): (d: nat)
    requires IsDigit(c)
    ensures d < 10
  {
    (c as int - '0' as int) as nat
  }

  lemma DigitValueOfDigitChar(d: nat)
    requires d < 10
    ensures DigitValue(DigitChar(d)) == d
  {
  }

  predicate AllDigits(s: string) {
    forall i :: 0 <= i < |s| ==> IsDigit(s[i])
  }

  /** The shortest decimal rendering of `n`: no leading zero except for 0 itself. */
  function NatToString(n: nat): (r: string)
    ensures 1 <= |r|
    ensures AllDigits(r)
    ensures r[0] == '0' ==> n == 0
    decreases n
  {
    if n < 10 then [DigitChar(n)]
    else NatToString(n / 10) + [DigitChar(n % 10)]
  }

  /** Python `str(i)`: a `-` sign for negatives, then the digits of `|i|`. */
  function IntToString(i: int): (r: string)
    ensures 1 <= |r|
    ensures i < 0 <==> r[0] == '-'
  {
    if i < 0 then "-" + NatToString(-i) else NatToString(i)
  }

  /** The value of a digit string read most-significant digit first. */
  function DigitsValue(s: string): nat
    requires AllDigits(s)
    decreases |s|
  {
    if |s| == 0 then 0
    else 10 * DigitsValue(s[..|s| - 1]) + DigitValue(s[|s| - 1])
  }

  predicate IsSign(c: char) {
    c == '-' || c == '+'
  }

  /** What this model's `int()` accepts: at least one ASCII digit, after an
      optional sign. */
  predicate IsIntLiteral(s: string) {
    || (1 <= |s| && AllDigits(s))
    || (2 <= |s| && IsSign(s[0]) && AllDigits(s[1..]))
  }

  /** `int(s)` for a sign and ASCII digits; `None` where Python raises `ValueError`. */
  function ParseInt(s: string): (r: Option<int>)
    ensures r.Some? <==> IsIntLiteral(s)
    ensures AllDigits(s) && 1 <= |s| ==> r == Some(DigitsValue(s))
    ensures IsIntLiteral(s) && s[0] == '+' ==> r == Some(DigitsValue(s[1..]))
    ensures IsIntLiteral(s) && s[0] == '-' ==> r == Some(-(DigitsValue(s[1..]) as int))
  {
    if |s| == 0 then None
    else if s[0] == '-' || s[0] == '+' then
      var body := s[1..];
      if 1 <= |body| && AllDigits(body) then
        var magnitude: int := DigitsValue(body);
        Some(if s[0] == '-' then -magnitude else magnitude)
      else None
    else if AllDigits(s) then Some(DigitsValue(s))
    else None
  }

  lemma {:induction false} DigitsValueOfNatToString(n: nat)
    ensures DigitsValue(NatToString(n)) == n
    decreases n
  {
    if n < 10 {
      DigitValueOfDigitChar(n);
    } else {
      var prefix := NatToString(n / 10);
      var s := prefix + [DigitChar(n % 10)];
      assert s[..|s| - 1] == prefix;
      DigitsValueOfNatToString(n / 10);
      DigitValueOfDigitChar(n % 10);
    }
  }

  /** Reading back what `IntToString` printed gives the original integer. */
  lemma {:induction false} ParseIntOfIntToString(i: int)
    ensures ParseInt(IntToString(i)) == Some(i)
  {
    if i < 0 {
      ParseNegative(-i);
    } else {
      ParseUnsigned(i);
    }
  }

  /** The plain rendering of `n` reads back as `n`. */
  lemma {:induction false} ParseUnsigned(n: nat)
    ensures ParseInt(NatToString(n)) == Some(n)
  {
    DigitsValueOfNatToString(n);
  }

  /** A minus sign before the rendering of `n` reads back as `-n`. */
  lemma {:induction false} ParseNegative(n: nat)
    ensures ParseInt("-" + NatToString(n)) == Some(-(n as int))
  {
    var digits := NatToString(n);
    var s := "-" + digits;
    assert s[0] == '-' && s[1..] == digits;
    DigitsValueOfNatToString(n);
  }
}

=== FILE: ordered_dict.dfy ===
/** Python's insertion-ordered `dict`, as a sequence of key/value pairs.
    Updating an existing key keeps its position and replaces its value;
    a new key goes to the end. Iteration (`items()`) is the sequence order. */
module OrderedDict {
  import opened Wrappers

  type Dict<V> = seq<(string, V)>

  /** Every key occurs at most once: the invariant of a real dict. */
  predicate NoDupKeys<V(!new)>(d: Dict<V>) {
    forall i, j :: 0 <= i < j < |d| ==> d[i].0 != d[j].0
  }

  function Keys<V>(d: Dict<V>): (ks: set<string>)
    ensures forall i :: 0 <= i < |d| ==> d[i].0 in ks
  {
    if |d| == 0 then {} else {d[0].0} + Keys(d[1..])
  }

  /** `d.get(k)`: the value of the first pair with key `k`. */
  function Get<V(!new)>(d: Dict<V>, k: string): (r: Option<V>)
    ensures r.Some? <==> k in Keys(d)
    ensures r.Some? ==> (k, r.value) in d
  {
    if |d| == 0 then None
    else if d[0].0 == k then Some(d[0].1)
    else Get(d[1..], k)
  }

  /** `d[k] = v`. */
  function Set<V(!new)>(d: Dict<V>, k: string, v: V): (r: Dict<V>)
    ensures Get(r, k) == Some(v)
    ensures forall k' :: k' != k ==> Get(r, k') == Get(d, k')
    ensures NoDupKeys(d) ==> NoDupKeys(r)
    ensures k in Keys(d) ==> |r| == |d| && forall i :: 0 <= i < |d| ==> r[i].0 == d[i].0
    ensures k !in Keys(d) ==> r == d + [(k, v)]
  {
    SetFacts(d, k, v);
    AssignKeepsPositions(d, k, v);
    Assign(d, k, v)
  }

  /** The recursion behind `Set`: replace in place, or append. */
  function Assign<V>(d: Dict<V>, k: string, v: V): Dict<V> {
    if |d| == 0 then [(k, v)]
    else if d[0].0 == k then [(k, v)] + d[1..]
    else [d[0]] + Assign(d[1..], k, v)
  }

  /** Assigning a present key leaves every key where it was. */
  lemma {:induction false} AssignKeepsPositions<V>(d: Dict<V>, k: string, v: V)
    ensures k in Keys(d) ==>
              |Assign(d, k, v)| == |d| && forall i :: 0 <= i < |d| ==> Assign(d, k, v)[i].0 == d[i].0
  {
    if k in Keys(d) && d[0].0 != k {
      AssignKeepsPositions(d[1..], k, v);
      var r := Assign(d, k, v);
      forall i | 0 <= i < |d|
        ensures r[i].0 == d[i].0
      {
        if i > 0 {
          assert r[i] == Assign(d[1..], k, v)[i - 1];
        }
      }
    }
  }

  lemma {:induction false} SetFacts<V(!new)>(d: Dict<V>, k: string, v: V)
    ensures Keys(Assign(d, k, v)) == Keys(d) + {k}
    ensures Get(Assign(d, k, v), k) == Some(v)
    ensures forall k' :: k' != k ==> Get(Assign(d, k, v), k') == Get(d, k')
    ensures NoDupKeys(d) ==> NoDupKeys(Assign(d, k, v))
    ensures k in Keys(d) ==> |Assign(d, k, v)| == |d|
    ensures k !in Keys(d) ==> Assign(d, k, v) == d + [(k, v)]
  {
    if |d| > 0 {
      var rest := d[1..];
      var r := Assign(d, k, v);
      if d[0].0 == k {
        AssignHead(d, k, v);
      } else {
        SetFacts(rest, k, v);
        AssignTailKeys(d, k, v);
        AssignTailGet(d, k, v);
        AssignTailNoDup(d, k, v);
        AssignTailShape(d, k, v);
      }
    }
  }

  /** `Assign` when the first key is the one assigned. */
  lemma AssignHead<V(!new)>(d: Dict<V>, k: string, v: V)
    requires |d| > 0 && d[0].0 == k
    ensures Keys(Assign(d, k, v)) == Keys(d) + {k}
    ensures Get(Assign(d, k, v), k) == Some(v)
    ensures forall k' :: k' != k ==> Get(Assign(d, k, v), k') == Get(d, k')
    ensures NoDupKeys(d) ==> NoDupKeys(Assign(d, k, v))
    ensures |Assign(d, k, v)| == |d|
  {
    var rest := d[1..];
    var r := Assign(d, k, v);
    assert d == [d[0]] + rest;
    assert r[1..] == rest;
    NoDupCons(d[0], rest);
    NoDupCons((k, v), rest);
  }

  // `Assign` when the first key is another one, given the facts for the rest.

  lemma AssignTailKeys<V(!new)>(d: Dict<V>, k: string, v: V)
    requires |d| > 0 && d[0].0 != k
    requires Keys(Assign(d[1..], k, v)) == Keys(d[1..]) + {k}
    ensures Keys(Assign(d, k, v)) == Keys(d) + {k}
  {
    assert Assign(d, k, v)[1..] == Assign(d[1..], k, v);
  }

  lemma AssignTailGet<V(!new)>(d: Dict<V>, k: string, v: V)
    requires |d| > 0 && d[0].0 != k
    requires Get(Assign(d[1..], k, v), k) == Some(v)
    requires forall k' :: k' != k ==> Get(Assign(d[1..], k, v), k') == Get(d[1..], k')
    ensures Get(Assign(d, k, v), k) == Some(v)
    ensures forall k' :: k' != k ==> Get(Assign(d, k, v), k') == Get(d, k')
  {
    assert Assign(d, k, v)[1..] == Assign(d[1..], k, v);
  }

  lemma AssignTailNoDup<V(!new)>(d: Dict<V>, k: string, v: V)
    requires |d| > 0 && d[0].0 != k
    requires Keys(Assign(d[1..], k, v)) == Keys(d[1..]) + {k}
    requires NoDupKeys(d[1..]) ==> NoDupKeys(Assign(d[1..], k, v))
    ensures NoDupKeys(d) ==> NoDupKeys(Assign(d, k, v))
  {
    var rest := d[1..];
    var tail := Assign(rest, k, v);
    assert d == [d[0]] + rest;
    assert Assign(d, k, v) == [d[0]] + tail;
    NoDupCons(d[0], rest);
    NoDupCons(d[0], tail);
  }

  lemma AssignTailShape<V(!new)>(d: Dict<V>, k: string, v: V)
    requires |d| > 0 && d[0].0 != k
    requires k in Keys(d[1..]) ==> |Assign(d[1..], k, v)| == |d[1..]|
    requires k !in Keys(d[1..]) ==> Assign(d[1..], k, v) == d[1..] + [(k, v)]
    ensures k in Keys(d) ==> |Assign(d, k, v)| == |d|
    ensures k !in Keys(d) ==> Assign(d, k, v) == d + [(k, v)]
  {
    assert d == [d[0]] + d[1..];
  }

  lemma NoDupCons<V(!new)>(p: (string, V), rest: Dict<V>)
    ensures NoDupKeys([p] + rest) <==> p.0 !in Keys(rest) && NoDupKeys(rest)
  {
    var d := [p] + rest;
    assert d[1..] == rest;
    if NoDupKeys(d) {
      forall i, j | 0 <= i < j < |rest|
        ensures rest[i].0 != rest[j].0
      {
        assert rest[i] == d[i + 1] && rest[j] == d[j + 1];
      }
      forall i | 0 <= i < |rest|
        ensures rest[i].0 != p.0
      {
        assert rest[i] == d[i + 1] && d[0] == p;
      }
      NotInKeys(rest, p.0);
    }
    if p.0 !in Keys(rest) && NoDupKeys(rest) {
      forall i, j | 0 <= i < j < |d|
        ensures d[i].0 != d[j].0
      {
        if i == 0 {
          assert d[j] == rest[j - 1];
        } else {
          assert d[i] == rest[i - 1] && d[j] == rest[j - 1];
        }
      }
    }
  }

  lemma NotInKeys<V>(d: Dict<V>, k: string)
    requires forall i :: 0 <= i < |d| ==> d[i].0 != k
    ensures k !in Keys(d)
  {
    if |d| > 0 {
      NotInKeys(d[1..], k);
    }
  }

  /** The pairs whose key satisfies `keep`, in their original order. */
  function Filter<V(!new)>(d: Dict<V>, keep: string -> bool): (r: Dict<V>)
    ensures forall p :: p in r <==> p in d && keep(p.0)
    ensures forall k :: Get(r, k) == if keep(k) then Get(d, k) else None
    ensures NoDupKeys(d) ==> NoDupKeys(r)
    ensures |r| <= |d|
  {
    KeptMembers(d, keep);
    KeptGet(d, keep);
    KeptNoDup(d, keep);
    Kept(d, keep)
  }

  /** The recursion behind `Filter`. */
  function Kept<V>(d: Dict<V>, keep: string -> bool): (r: Dict<V>)
    ensures |r| <= |d|
  {
    if |d| == 0 then []
    else if keep(d[0].0) then [d[0]] + Kept(d[1..], keep)
    else Kept(d[1..], keep)
  }

  lemma {:induction false} KeptMembers<V(!new)>(d: Dict<V>, keep: string -> bool)
    ensures forall p :: p in Kept(d, keep) <==> p in d && keep(p.0)
  {
    if |d| > 0 {
      KeptMembers(d[1..], keep);
      assert d == [d[0]] + d[1..];
    }
  }

  lemma {:induction false} KeptGet<V(!new)>(d: Dict<V>, keep: string -> bool)
    ensures forall k :: Get(Kept(d, keep), k) == if keep(k) then Get(d, k) else None
  {
    if |d| > 0 {
      KeptGet(d[1..], keep);
      if keep(d[0].0) {
        assert ([d[0]] + Kept(d[1..], keep))[1..] == Kept(d[1..], keep);
      }
    }
  }

  lemma {:induction false} KeptNoDup<V(!new)>(d: Dict<V>, keep: string -> bool)
    ensures NoDupKeys(d) ==> NoDupKeys(Kept(d, keep))
  {
    if |d| > 0 && NoDupKeys(d) {
      var rest := Kept(d[1..], keep);
      assert d == [d[0]] + d[1..];
      NoDupCons(d[0], d[1..]);
      KeptNoDup(d[1..], keep);
      if keep(d[0].0) {
        KeptGet(d[1..], keep);
        assert d[0].0 !in Keys(rest) by {
          assert Get(rest, d[0].0) == Get(d[1..], d[0].0);
        }
        NoDupCons(d[0], rest);
      }
    }
  }

  /** Filtering works pair by pair, in order: nothing comes from the empty
      dict, and a pair appended to the input is appended to the output when
      its key is kept. */
  lemma {:induction false} FilterAppend<V(!new)>(d: Dict<V>, keep: string -> bool, p: (string, V))
    ensures Filter<V>([], keep) == []
    ensures Filter(d + [p], keep) == Filter(d, keep) + (if keep(p.0) then [p] else [])
    decreases |d|
  {
    KeptAppend(d, keep, p);
  }

  lemma {:induction false} KeptAppend<V>(d: Dict<V>, keep: string -> bool, p: (string, V))
    ensures Kept(d + [p], keep) == Kept(d, keep) + (if keep(p.0) then [p] else [])
    decreases |d|
  {
    if |d| == 0 {
      assert d + [p] == [p];
      assert [p][1..] == [];
    } else {
      assert (d + [p])[0] == d[0];
      assert (d + [p])[1..] == d[1..] + [p];
      KeptAppend(d[1..], keep, p);
    }
  }

  /** `del d[k]` (no effect when `k` is absent). */
  function Remove<V(!new)>(d: Dict<V>, k: string): (r: Dict<V>)
    ensures Get(r, k) == None
    ensures forall k' :: k' != k ==> Get(r, k') == Get(d, k')
    ensures NoDupKeys(d) ==> NoDupKeys(r)
  {
    Filter(d, k' => k' != k)
  }

  /** `del d[k]` for each `k` of `ks` that is present, in turn. */
  function RemoveAll<V(!new)>(d: Dict<V>, ks: seq<string>): (r: Dict<V>)
    ensures forall k :: Get(r, k) == if k in ks then None else Get(d, k)
    ensures NoDupKeys(d) ==> NoDupKeys(r)
    decreases |ks|
  {
    if |ks| == 0 then d
    else RemoveAll(Remove(d, ks[0]), ks[1..])
  }
}

=== FILE: rate_limiter.dfy ===
/** The submission rate-limit decision of
    corehq/apps/receiverwrapper/rate_limiter.py. The two limiters (one
    global, one per domain) are abstract: their "allow" answers, the
    feature flag and the outcome of the bounded wait are inputs, and each
    limiter is represented by its usage counter, which `report_usage`
    increments. */
module SubmissionRateLimit {
  import opened Wrappers

  /** The usage counters of the global limiter and of each domain's limiter. */
  datatype Limiters = Limiters(globalUsage: nat, domainUsage: map<string, nat>)

  function DomainUsage(s: Limiters, domain: string): nat {
    if domain in s.domainUsage then s.domainUsage[domain] else 0
  }

  /** `submission_rate_limiter.report_usage(domain)`. */
  function ReportDomainUsage(s: Limiters, domain: string): (r: Limiters)
    ensures DomainUsage(r, domain) == DomainUsage(s, domain) + 1
    ensures forall d :: d != domain ==> DomainUsage(r, d) == DomainUsage(s, d)
    ensures r.globalUsage == s.globalUsage
  {
    s.(domainUsage := s.domainUsage[domain := DomainUsage(s, domain) + 1])
  }

  /** `global_submission_rate_limiter.report_usage()`. */
  function ReportGlobalUsage(s: Limiters): (r: Limiters)
    ensures r.globalUsage == s.globalUsage + 1
    ensures forall d :: DomainUsage(r, d) == DomainUsage(s, d)
  {
    s.(globalUsage := s.globalUsage + 1)
  }

  /** What the environment answers for one submission: each limiter's
      `allow_usage`, the `RATE_LIMIT_SUBMISSIONS` flag for the domain, and
      whether the bounded wait acquired capacity. */
  datatype Answers = Answers(globalAllows: bool, domainAllows: bool, flagEnabled: bool, waitAcquired: bool)

  /** The `max_wait` of the dry-run mode, in seconds. */
  const MaxWait: nat := 15

  /** The duration tag of the dry-run metric: a bucket of the measured wait, or a timeout. */
  datatype DurationTag = Bucketed | Timeout

  datatype Metric =
    | RateLimited(domain: string)                             // commcare.xform_submissions.rate_limited
    | RateLimitedTest(domain: string, duration: DurationTag)  // commcare.xform_submissions.rate_limited.test
    | ThresholdsReportCall                                    // a call of the once-a-minute thresholds report

  /** The result of one decision: whether the submission is rejected,
      whether the domain limiter was asked, the timeout of the wait when
      one was made, the metrics emitted, and the limiters afterwards. */
  datatype Outcome = Outcome(
    rejected: bool,
    consultedDomainLimiter: bool,
    waitTimeout: Option<nat>,
    metrics: seq<Metric>,
    limiters: Limiters)

  /** Both limiters refuse and the flag enforces the limit. */
  predicate Rejects(a: Answers) {
    !a.globalAllows && !a.domainAllows && a.flagEnabled
  }

  /** `rate_limit_submission(domain)`. */
  function RateLimitSubmission(s: Limiters, domain: string, a: Answers): (o: Outcome)
    ensures o.rejected <==> Rejects(a)
    ensures a.globalAllows || a.domainAllows ==> !o.rejected
    ensures o.consultedDomainLimiter <==> !a.globalAllows
    ensures o.waitTimeout.Some? <==> !a.globalAllows && !a.domainAllows && !a.flagEnabled
    ensures o.waitTimeout.Some? ==> o.waitTimeout.value == MaxWait && !o.rejected
    ensures !o.rejected ==>
              && o.limiters.globalUsage == s.globalUsage + 1
              && DomainUsage(o.limiters, domain) == DomainUsage(s, domain) + 1
    ensures o.rejected ==> o.limiters == s
    ensures forall d :: d != domain ==> DomainUsage(o.limiters, d) == DomainUsage(s, d)
    ensures o.rejected ==> o.metrics == [RateLimited(domain)]
    ensures !o.rejected ==> |o.metrics| >= 1 && o.metrics[|o.metrics| - 1] == ThresholdsReportCall
    ensures o.metrics == (if o.rejected then [RateLimited(domain)]
                          else if o.waitTimeout.Some? then
                            [RateLimitedTest(domain, if a.waitAcquired then Bucketed else Timeout), ThresholdsReportCall]
                          else [ThresholdsReportCall])
    ensures o.waitTimeout.Some? ==>
              |o.metrics| >= 1 && o.metrics[0].RateLimitedTest? &&
              (o.metrics[0].duration == Timeout <==> !a.waitAcquired)
  {
    var consulted := !a.globalAllows;
    var shouldAllow := a.globalAllows || a.domainAllows;
    if shouldAllow then
      Outcome(false, consulted, None, [ThresholdsReportCall], RecordUsage(s, domain))
    else if a.flagEnabled then
      Outcome(true, consulted, None, [RateLimited(domain)], s)
    else
      var tag := if a.waitAcquired then Bucketed else Timeout;
      Outcome(false, consulted, Some(MaxWait), [RateLimitedTest(domain, tag), ThresholdsReportCall],
              RecordUsage(s, domain))
  }

  /** Usage reported for an allowed submission: the domain limiter, then the global one. */
  function RecordUsage(s: Limiters, domain: string): Limiters {
    ReportGlobalUsage(ReportDomainUsage(s, domain))
  }

  /** The short-circuit `or`: once the global limiter allows, the domain
      limiter's answer (and the wait's) changes nothing. */
  lemma GlobalAllowanceShortCircuits(s: Limiters, domain: string, a: Answers, domainAllows: bool, waitAcquired: bool)
    requires a.globalAllows
    ensures RateLimitSubmission(s, domain, a)
         == RateLimitSubmission(s, domain, a.(domainAllows := domainAllows, waitAcquired := waitAcquired))
    ensures !RateLimitSubmission(s, domain, a).consultedDomainLimiter
  {
  }

  datatype Submission = Submission(domain: string, answers: Answers)

  /** The limiters after deciding a series of submissions in order. */
  function Run(s: Limiters, subs: seq<Submission>): Limiters
    decreases |subs|
  {
    if |subs| == 0 then s
    else Run(RateLimitSubmission(s, subs[0].domain, subs[0].answers).limiters, subs[1..])
  }

  /** How many of the submissions are allowed. */
  function AllowedCount(subs: seq<Submission>): nat
    decreases |subs|
  {
    if |subs| == 0 then 0
    else (if Rejects(subs[0].answers) then 0 else 1) + AllowedCount(subs[1..])
  }

  /** How many of the submissions for `domain` are allowed. */
  function AllowedFor(subs: seq<Submission>, domain: string): nat
    decreases |subs|
  {
    if |subs| == 0 then 0
    else (if subs[0].domain == domain && !Rejects(subs[0].answers) then 1 else 0) + AllowedFor(subs[1..], domain)
  }

  /** Over any series of submissions, the global counter grows by the number
      of allowed submissions and each domain's counter by the number of its
      allowed submissions: rejected submissions leave no trace. */
  lemma {:induction false} RunCountsAllowed(s: Limiters, subs: seq<Submission>)
    ensures Run(s, subs).globalUsage == s.globalUsage + AllowedCount(subs)
    ensures forall d :: DomainUsage(Run(s, subs), d) == DomainUsage(s, d) + AllowedFor(subs, d)
    decreases |subs|
  {
    if |subs| > 0 {
      var next := RateLimitSubmission(s, subs[0].domain, subs[0].answers).limiters;
      RunCountsAllowed(next, subs[1..]);
    }
  }
}

=== FILE: wrappers.dfy ===
/** Failure-compatible datatypes shared by the model: `Option` for Python's
    "value or None" and `Result` for "value or raised exception". Both work
    with Dafny's `:-` operator, so a raised exception propagates the way it
    does in the source. */
module Wrappers {

  datatype Option<+T> = None | Some(value: T)

  /** `Ok(value)` is a normal return, `Err(error)` an exception that escapes. */
  datatype Result<+T, +E> = Ok(value: T) | Err(error: E) {

    predicate IsFailure() {
      Err?
    }

    function PropagateFailure<U>(): Result<U, E>
      requires Err?
    {
      Err(error)
    }

    function Extract(): T
      requires Ok?
    {
      value
    }
  }
}
